=== FILE: README.md ===
# CBR test task: balance and payment-packet validation, modelled in Dafny

This project models the validation core of a small Python test suite. The suite checks two kinds of bank XML export.

- **A balance export.** `Oper` nodes under `Ballance` become `Operation` records:
  - the processed flag comes from the status text;
  - the date is a `dd-mm-yyyy` text;
  - debit and credit are optional integers.
  
  A `Balance` numbers the operations 1..n. It runs three collect-all checks and computes the processed debit and credit totals. Totals exist only when the two amount checks pass.
- **A payment packet (PacketEPD) against a BIC directory (ED807).** The packet has header checks: EDQuantity, Sum, SystemCode, date/author, EDNo sequence, bank requisites, and mandatory header attributes. There is also the pairing pass. Directory entries are taken two at a time as (payer, payee). The k-th pair is compared with the k-th ED101 document on nine fields. Mismatches accumulate. A missing `Accounts`, or a packet that runs out of documents, stops the pass at once.

XML trees arrive already parsed. An `Element` has a tag, an attribute map, optional text and a sequence of children. The checks return data: scan results, finding sequences or verdicts. They never assert.

| file | module | models |
|---|---|---|
| wrappers.dfy | Wrappers | `Option`, `Result` |
| text.dfy | Text | Python `int()` on decimal text, `str()` of integers, `"\n".join` and splitting at newlines |
| scans.dfy | Scans | the collect-all scan `(True, n)` / `(False, 1-based positions)` and its specification `Flags` |
| xml_tree.dfy | XmlTree | elements; `get`, `find`, `findtext`; namespace stripping; child-step `findall` |
| node_checks.dfy | NodeChecks | the three node-presence scanners; the balance locators and `check_*` delegates |
| error_list.dfy | ErrorList | `check_error` and `assert_error_list` |
| operation.dfy | Operations | `Operation.__init__`: processed flag, strict date parse, amounts |
| balance.dfy | Balances | `Balance`: operation parsing, the three checks, processed totals, unique dates |
| epd_headers.dfy | EpdHeaders | the packet's header and per-document checks |
| epd_pairing.dfy | EpdPairing | the directory/packet pairing pass |

Three behaviours of the code are easy to misread. The model follows the code as written:

- **Missing `ParticipantInfo`.** It is not guarded. The pairing pass calls `.get` on `None`, which raises and discards every collected finding. The model gives the `Crash` verdict, as for a missing `AccDoc`, `Payer`, `Payee` or `Bank`.
- **The operation date attribute.** The balance model reads it from `data`, while the presence check looks for `date`.
- **The Sum check's guard.** It tests that `EDQuantity` is present, not `Sum`. A header without `Sum` therefore fails on the lookup of `Sum`.

## Model

| member | source | states |
|---|---|---|
| Text.ParseInt | model/Operation.py:20-21 | `int()` accepts exactly the non-empty digit runs, optionally after one `+` or `-`; the value is the digits' decimal value, negated after a `-` |
| Text.ParseIntRoundTrip | model/Operation.py:20-21 | parsing the decimal rendering of any integer gives that integer back |
| Text.SplitJoinRoundTrip | utils/check.py:10 | splitting the newline-joined messages at newlines gives the messages back, in order, when none holds a newline |
| XmlTree.FindChild | test_epd.py:153-155 | `find(tag)` is absent iff no child has the tag; otherwise it is the first child with that tag |
| XmlTree.FindText | model/Balance.py:22 | `findtext` is present iff the child exists; its value is the child's text, or empty when the child has none |
| XmlTree.LocalName | utils/xml.py:38 | `split('}')[1]` succeeds iff the tag holds a `}`; the result holds no `}` |
| XmlTree.LocalNameOfQualified | utils/xml.py:38 | stripping `{uri}local` gives `local` back |
| XmlTree.UniqueChildNames | utils/xml.py:35-39 | raises iff some child tag lacks `}`; otherwise a name is in the set iff some child's local name equals it, so duplicates collapse |
| XmlTree.FindAll | utils/xml.py:26-27 | every element a child-step path reaches carries the path's last tag |
| Scans.Scan | utils/xml.py:49-58 | passes with the node count iff no node is bad; otherwise lists, strictly increasing, exactly the 1-based positions of the bad nodes |
| NodeChecks.AllContainAttrib | utils/xml.py:41-58 | flags exactly the nodes without the attribute, per the scan specification |
| NodeChecks.BreakCapsCount | utils/xml.py:70-76 | the early `break` only caps the option count at two, so the count equals one exactly when the full count does |
| NodeChecks.AllContainOneOfAttrib | utils/xml.py:60-83 | flags exactly the nodes carrying a number of the options other than one |
| NodeChecks.AllContainChildNode | utils/xml.py:85-103 | raises iff some node has an unqualified child tag; otherwise flags exactly the nodes with no child of that local name |
| NodeChecks.OperationNodes | utils/xml.py:110-111 | the operation locator `ns:Ballance/ns:Oper` yields only qualified `Oper` elements |
| NodeChecks.CheckOperationsHaveDate | utils/xml.py:115-116 | flags exactly the operation nodes without a `date` attribute |
| NodeChecks.CheckOperationsHaveCorrAcc | utils/xml.py:118-119 | flags exactly the operation nodes without a `corAcc` attribute |
| NodeChecks.CheckOperationsHaveDbtOrCdt | utils/xml.py:121-122 | the dbt/cdt check is the one-of scan over `dbt`, `cdt` at the operation locator |
| NodeChecks.DbtOrCdtFlagsBothOrNeither | utils/xml.py:121-122 | that check flags exactly the operation nodes carrying both amounts or neither |
| NodeChecks.CheckOperationsHaveStatus | utils/xml.py:124-125 | flags exactly the operation nodes without a `Status` child, or raises on an unqualified child tag |
| ErrorList.CheckError | utils/check.py:3-7 | on a match the list is unchanged and the pass continues; on a mismatch exactly the message is appended; it stops iff there is a mismatch and `dont_continue` is set; earlier messages are never lost |
| ErrorList.AssertErrorList | utils/check.py:9-10 | succeeds iff the list is empty; the failure text contains every message |
| ErrorList.FailureTextListsMessages | utils/check.py:10 | the failure text is the messages joined by newlines, in order, and, when no message holds a newline, splitting it recovers them |
| Operations.ParseDate | model/Operation.py:18 | accepts only a `dd-mm-yyyy` text naming a real calendar date |
| Operations.FormatDate | model/Balance.py:46 | `strftime("%d-%m-%Y")` gives ten characters: two digits, a dash, two digits, a dash, four digits |
| Operations.FormatThenParse | model/Operation.py:18 | parsing the `dd-mm-yyyy` text of a valid date gives the date back |
| Operations.ParseThenFormat | model/Operation.py:18 | formatting a parsed date gives the accepted text back |
| Operations.FormatDateInjective | model/Balance.py:45-46 | distinct valid dates have distinct `dd-mm-yyyy` texts |
| Operations.ParseAmount | model/Operation.py:20-21 | empty text gives no amount; other text gives its integer value, or fails when it is not an integer |
| Operations.MakeOperation | model/Operation.py:15-21 | fails iff the date is missing or not a date, or a non-empty amount is not an integer, and says which; on success: id kept; processed iff the status is exactly "Выполнена"; the date formats back to the given text; account is `str()` of the given value; each amount is absent iff its text is empty, else its integer value |
| Balances.CorrAccountOf | model/Balance.py:24 | the `corAcc` attribute when present and non-empty, otherwise the `corAcc` child's text |
| Balances.OperationFromNode | model/Balance.py:17-27 | a node builds iff its `data` attribute is a date and each non-empty `dbt`/`cdt` is an integer; a missing `data` is a date failure; on success: the given id, the date whose text is `data`, processed iff the `Status` text is "Выполнена", the account from `corAcc`, and the parsed amounts |
| Balances.ParseOperationNodes | model/Balance.py:15-28 | succeeds iff every node builds; the operations are numbered 1..n in node order, each built from its node; otherwise the first failing node is reported |
| Balances.EachOperationIsEitherDebitOrCredit | model/Balance.py:60-70 | passes iff every operation has exactly one amount; otherwise flags exactly the ids with both or neither, in order |
| Balances.EachOperationHasValidAmount | model/Balance.py:72-82 | passes iff every present amount is positive; otherwise flags exactly the ids with a non-positive amount |
| Balances.CorAccountsDifferFromOwn | model/Balance.py:48-58 | passes iff no operation uses the balance's own account; otherwise flags exactly those ids |
| Balances.ProcessedTotalAppend | model/Balance.py:35-43 | a processed total splits over concatenation of operation lists |
| Balances.UncountedOperationIsIgnored | model/Balance.py:36-40 | an unprocessed operation, or one without that side's amount, changes no total wherever it stands |
| Balances.ProcessedTotalBounds | model/Balance.py:33-43 | with all amounts positive, a total is non-negative and at least each amount it counts |
| Balances.CalculateProcessedOperation | model/Balance.py:32-43 | the loop fails iff an amount check flags an operation; otherwise it returns the sum of that side's amounts over processed operations, which is non-negative |
| Balances.BuildBalance | model/Balance.py:9-13 | a balance exists iff parsing succeeds and both amount checks pass; its operations are those parsed, numbered 1..n, each with exactly one positive amount; both totals are the processed sums and non-negative |
| Balances.UniqueDates | model/Balance.py:45-46 | the set holds every operation's date text and nothing else; each is a `dd-mm-yyyy` text; there are no more of them than operations |
| Balances.UniqueDatesSingleton | model/Balance.py:45-46 | there is exactly one distinct date text iff there is an operation and all share one calendar date |
| Balances.MissingDataAttributeRejects | model/Balance.py:21 | an `Oper` node without a `data` attribute makes the balance unbuildable, whatever its `date` attribute says |
| Balances.PendingOperationExample | model/Balance.py:36-41 | completed debit 100, completed credit 50 and pending debit 20 pass both checks, with totals 100 and 50 |
| EpdHeaders.MandatoryHeaderFindings | test_epd.py:37-54 | passes iff every mandatory attribute is in both headers with equal values; one finding per disagreeing attribute; an attribute missing from ED807, missing from the packet, or with differing values is reported as such; every finding is the first failing assertion of its attribute's block; the `j`-th finding belongs to the `j`-th disagreeing attribute, so findings follow the mandatory list's order |
| EpdHeaders.EdQuantityFindings | test_epd.py:56-65 | passes iff the header `EDQuantity` is an integer equal to the ED101 count; otherwise a single finding, with both numbers on a mismatch |
| EpdHeaders.EdQuantityExamples | test_epd.py:56-65 | `EDQuantity` 2 over two documents passes; 3 over two is a mismatch of 3 against 2 |
| EpdHeaders.SumFindings | test_epd.py:67-81 | passes iff `EDQuantity` is present (the guard as written), every ED101 has an integer `Sum`, and the header `Sum` equals their total; at most one finding, in the order the test fails: a missing `EDQuantity`; then the positions of all documents without `Sum`; then the first document whose `Sum` is not an integer; then a missing header `Sum`; then a header `Sum` that is not an integer; then the header value against the total |
| EpdHeaders.SystemCodeFindings | test_epd.py:83-96 | passes iff the root and every ED101 carry `SystemCode` "01"; otherwise one finding at the first failure: a root without `SystemCode` gives the missing-attribute finding, a wrong root value gives the wrong-code finding for the header, and with a correct root the finding names the first ED101 whose value is wrong |
| EpdHeaders.DocDateAuthorFindings | test_epd.py:106-113 | passes iff every document carries both header values; one finding per disagreeing document; a differing date is reported at its position, and a differing author only when the date agrees; every finding names a document that disagrees for that reason; the `j`-th finding belongs to the `j`-th disagreeing document, so findings follow document order |
| EpdHeaders.DateAuthorFindings | test_epd.py:98-113 | passes iff the header has `EDDate` and `EDAuthor` and every ED101 carries both values; a missing `EDDate` is reported first, then a missing `EDAuthor`; with both present the findings are exactly the per-document ones |
| EpdHeaders.FirstEdNoViolation | test_epd.py:118-122 | finds the first document whose `EDNo` is not its 1-based position |
| EpdHeaders.EdNoFindings | test_epd.py:115-122 | passes iff every ED101's `EDNo` is an integer equal to its 1-based position; otherwise a single finding at the first violating position |
| EpdHeaders.EdNoExamples | test_epd.py:118-122 | 1,2,3 passes; 1,3,2 and 1,1,2 both fail at position 2 |
| EpdHeaders.BankGap | test_epd.py:127-147 | a party bank has a gap iff the bank, its `BIC` or its `CorrespAcc` is missing |
| EpdHeaders.BankFindings | test_epd.py:130-147 | passes iff every document's party bank is complete; otherwise one finding at the first incomplete one |
| EpdHeaders.PartyGap | test_epd.py:126-128 | gathering the banks raises iff some document lacks a payer or a payee; the first document without a payer is named when there is one, otherwise the first without a payee |
| EpdHeaders.RequisitesFindings | test_epd.py:124-147 | passes iff every document's payer and payee banks carry `BIC` and `CorrespAcc`; at most one finding; a document without a payer makes the finding a missing payer, at the first such document; with every payer present, a document without a payee makes it a missing payee, at the first such document; with both parties everywhere the finding is the payer banks' one, or failing that the payee banks' one; a payee gap is reported only when every payer bank is complete |
| EpdPairing.ChunkPairs | test_epd.py:157-159 | exactly ⌊N/2⌋ pairs; pair k is entries 2k and 2k+1 |
| EpdPairing.DifferingMembership | test_epd.py:197-234 | a comparison's mismatch is called for iff it is among the comparisons and its values differ; none is called for iff all agree |
| EpdPairing.Record | test_epd.py:197-234 | the non-stopping comparisons append, after the earlier findings, one finding per differing comparison in comparison order, and nothing else |
| EpdPairing.Reading | test_epd.py:197-234 | the value pair compared for each field: `AccDocNo` against `PtType`, `AccDocDate` against `DateIn`, the document `Sum` against `Rgn`, each party's `Name` text against `NameP`, each party bank's `BIC` against the entry's `BIC`, and its `CorrespAcc` against the entry's `Accounts/@Account` |
| EpdPairing.Dereferenceable | test_epd.py:192-234 | the comparisons call `.get` or `.find` on `AccDoc`, `Payer`, `Payee`, both parties' `Bank` and both entries' `ParticipantInfo`; the iteration raises iff one of them is missing |
| EpdPairing.Readings | test_epd.py:197-234 | an iteration reads all nine fields in the order the code compares them, each entry its own field's reading |
| EpdPairing.PairStep | test_epd.py:169-236 | halts with the payer entry `2k+1` iff it lacks `Accounts`, else with the payee entry `2k+2` iff that lacks them, else with the exhausted documents iff none is left; otherwise raises iff a dereferenced element is missing; otherwise proceeds with exactly the mismatches of this pair's nine readings |
| EpdPairing.FieldMismatchReported | test_epd.py:196-234 | for each of the nine fields, a proceeding pair reports the field's mismatch, with both values, against the payer's entry for payer-side fields and the payee's for payee-side ones, iff the document's and directory's values differ |
| EpdPairing.ProceedCleanIffAllAgree | test_epd.py:196-234 | a proceeding pair reports nothing iff the document and the directory agree on all nine fields |
| EpdPairing.Walk | test_epd.py:165-238 | the findings a stop or failure reports start with everything collected before; a pass means nothing was collected |
| EpdPairing.Reconcile | test_epd.py:150-238 | fewer than two directory entries pass |
| EpdPairing.WalkVerdict | test_epd.py:165-238 | the first iteration that does not proceed decides: a stop carries every earlier mismatch plus its own finding, and a raise is a crash; if all proceed, the pass succeeds iff no mismatch was collected, else it fails with all of them in order |
| EpdPairing.ReconcileVerdict | test_epd.py:150-238 | the same characterisation for the pass over a packet and a directory |
| EpdPairing.CollectedAreMismatches | test_epd.py:197-234 | everything collected is a field mismatch of a pair already visited |
| EpdPairing.ShortPacketNeverCompletes | test_epd.py:187-190 | a packet with fewer ED101s than directory pairs always ends in a stop or a crash |
| EpdPairing.TrailingEntryIgnored | test_epd.py:158-159 | an odd trailing directory entry does not change the verdict |
| EpdPairing.WalkRespectsAgreement | test_epd.py:165-236 | two iteration functions that agree on every pair give the same verdict |
| EpdPairing.ExtraDocumentsIgnored | test_epd.py:192 | ED101 documents beyond the last pair are never compared |

## Left out

- Loading and parsing XML files (`_load_xml_tree`): file I/O. Encodings (windows-1251, utf-8) are left out too. Trees arrive already parsed.
- lxml path evaluation beyond plain child steps: `findall` is modelled for paths of child steps only. A namespace prefix is resolved into `{uri}local` tags by `Qualify`. The prefix `ns` is always bound (`utils/xml.py:11`); bound to `None`, lxml formats a step as `{None}local`, and the model does the same, so unqualified `Oper` elements are not matched.
- XmlTree.FindAll: lists the elements a path reaches but does not prove it lists every one; only the tag of each is stated.
- `XMLObject.get_root_attributes` and `XMLObject.find(path, elem=...)`: the packet tests call them, but `utils/xml.py` defines neither. They are modelled as the root's attribute map and a first-child lookup on the given element.
- The packet checks take the root's attribute map and its `ED101` children as given sequences. That is what `find_all("ED101")` returns.
- The pytest `with check` soft-assert blocks: each check returns its findings instead. Findings are structured values, not the message texts. Log and message wording is left out.
- Logging (`utils/logger.py`), fixtures and configuration loading (`conftest.py`), and the thin assertions in `test_balance.py`: test scaffolding, not validation logic. Line 67 there is arithmetic over configuration numbers.
- Operations.ParseDate: strict two-digit day, two-digit month and four-digit year of ASCII digits; `strptime` also accepts single-digit fields, a space-padded day such as `" 1"` and non-ASCII digits, which the model rejects.
- Text.ParseInt: sign and ASCII digits only; `int()` also accepts surrounding whitespace, underscores between digits and non-ASCII digits, which the model rejects. CPython's `int()` also raises on decimal text of more than 4300 digits (`sys.int_info.default_max_str_digits`), which the model accepts at any length.
- Balances.BuildBalance: the totals are computed with the functional `ProcessedTotal`. The loop form is `CalculateProcessedOperation`, proved equal to it.
- Balances.PendingOperationExample: stated over already-built operations, not over a concrete XML tree.
- EpdPairing.Reconcile: a missing `ParticipantInfo` is a `Crash` verdict, because the unguarded `.get` on `None` raises; no stop with the collected findings is modelled for it.
- Error positions are 1-based, as in the source's messages. Which Python exception type a failure raises is not modelled; each failure is a distinct finding or verdict.

=== FILE: balance.dfy ===
/** The balance aggregate: operations parsed from the `Oper` nodes in
    document order and numbered from 1, three collect-all business checks
    over them, and the processed debit and credit totals, which are only
    computed over an operation set that passes the two amount checks. */
module Balances {
  import opened Wrappers
  import opened Scans
  import opened XmlTree
  import opened Operations
  import NodeChecks

  /** The correspondent account of an operation node: the `corAcc`
      attribute when it is present and non-empty, otherwise the text of the
      `corAcc` child (absent when there is none either). */
  function CorrAccountOf(oper: Element, ns: Option<string>): (r: Option<string>)
    ensures Attr(oper, "corAcc").Some? && Attr(oper, "corAcc").value != "" ==> r == Attr(oper, "corAcc")
    ensures Attr(oper, "corAcc").None? || Attr(oper, "corAcc").value == "" ==>
              r == FindText(oper, NodeChecks.CorrAccTag(ns))
  {
    match Attr(oper, "corAcc")
    case Some(v) => if v != "" then Some(v) else FindText(oper, NodeChecks.CorrAccTag(ns))
    case None => FindText(oper, NodeChecks.CorrAccTag(ns))
  }

  /** The operation the `id`-th node builds. The date text is read from the
      attribute `data`, exactly as the balance model does. */
  function OperationFromNode(oper: Element, ns: Option<string>, id: nat): (r: Result<Operation, OperationError>)
    ensures r.Success? <==>
              && Attr(oper, "data").Some? && ParseDate(Attr(oper, "data").value).Some?
              && ParseAmount(AttrOr(oper, "dbt", "")).Some? && ParseAmount(AttrOr(oper, "cdt", "")).Some?
    ensures Attr(oper, "data").None? ==> r == Failure(MalformedDate)
    ensures r.Success? ==> r.value.id == id && FormatDate(r.value.date) == Attr(oper, "data").value
    ensures r.Success? ==>
              (r.value.isProcessed <==> FindText(oper, NodeChecks.StatusTag(ns)) == Some(COMPLETED_STATUS))
    ensures r.Success? ==> r.value.corrAccount == Str(CorrAccountOf(oper, ns))
    ensures r.Success? ==> r.value.debit == ParseAmount(AttrOr(oper, "dbt", "")).value
    ensures r.Success? ==> r.value.credit == ParseAmount(AttrOr(oper, "cdt", "")).value
  {
    MakeOperation(
      id,
      Attr(oper, "data"),
      FindText(oper, NodeChecks.StatusTag(ns)),
      CorrAccountOf(oper, ns),
      AttrOr(oper, "dbt", ""),
      AttrOr(oper, "cdt", ""))
  }

  /** Why a balance could not be built. */
  datatype BalanceError =
    | OperationRejected(id: nat, reason: OperationError)  // an operation constructor raised
    | InvalidOperationSet                                   // the assertions guarding the totals failed

  /** The operations carry the ids `first`, `first + 1`, ... in order. */
  predicate NumberedFrom(ops: seq<Operation>, first: nat) {
    forall i :: 0 <= i < |ops| ==> ops[i].id == first + i
  }

  /** Builds one operation per node from index `from` on, numbering them
      by position; the first node that cannot be built stops the walk. */
  function BuildFrom(opers: seq<Element>, build: (Element, nat) -> Result<Operation, OperationError>, from: nat)
    : (r: Result<seq<Operation>, BalanceError>)
    requires from <= |opers|
    ensures r.Success? <==> forall i :: from <= i < |opers| ==> build(opers[i], i + 1).Success?
    ensures r.Success? ==> |r.value| == |opers| - from
    ensures r.Success? ==> forall k :: 0 <= k < |r.value| ==> build(opers[from + k], from + k + 1) == Success(r.value[k])
    ensures r.Failure? ==>
              && r.error.OperationRejected?
              && from < r.error.id <= |opers|
              && build(opers[r.error.id - 1], r.error.id) == Failure(r.error.reason)
              && forall i :: from <= i < r.error.id - 1 ==> build(opers[i], i + 1).Success?
    decreases |opers| - from
  {
    if from == |opers| then Success([])
    else
      match build(opers[from], from + 1)
      case Failure(e) => Failure(OperationRejected(from + 1, e))
      case Success(op) =>
        match BuildFrom(opers, build, from + 1)
        case Failure(e) => Failure(e)
        case Success(rest) =>
          assert forall k :: 1 <= k < |rest| + 1 ==> ([op] + rest)[k] == rest[k - 1];
          Success([op] + rest)
  }

  /** `_parse_operation_nodes`: one operation per node, in document order,
      numbered 1..n; the first node whose operation cannot be built stops
      the parse. */
  function ParseOperationNodes(opers: seq<Element>, ns: Option<string>): (r: Result<seq<Operation>, BalanceError>)
    ensures r.Success? <==> forall i :: 0 <= i < |opers| ==> OperationFromNode(opers[i], ns, i + 1).Success?
    ensures r.Success? ==> |r.value| == |opers| && NumberedFrom(r.value, 1)
    ensures r.Success? ==> forall i :: 0 <= i < |opers| ==>
              OperationFromNode(opers[i], ns, i + 1) == Success(r.value[i])
    ensures r.Failure? ==>
              && r.error.OperationRejected?
              && 1 <= r.error.id <= |opers|
              && OperationFromNode(opers[r.error.id - 1], ns, r.error.id).Failure?
              && forall i :: 0 <= i < r.error.id - 1 ==> OperationFromNode(opers[i], ns, i + 1).Success?
  {
    var build := (n: Element, id: nat) => OperationFromNode(n, ns, id);
    var r := BuildFrom(opers, build, 0);
    assert forall i :: 0 <= i < |opers| ==> build(opers[i], i + 1) == OperationFromNode(opers[i], ns, i + 1);
    r
  }

  /** The ids of the operations from index `from` on that `isBad` picks
      out, in order (the `bad_ids` loops). */
  function IdsWhere(ops: seq<Operation>, isBad: Operation -> bool, from: nat): (r: seq<nat>)
    requires from <= |ops|
    ensures r == [] <==> forall i :: from <= i < |ops| ==> !isBad(ops[i])
    ensures NumberedFrom(ops, 1) ==> r == PositionsFrom(ops, isBad, from)
    decreases |ops| - from
  {
    if from == |ops| then []
    else
      var rest := IdsWhere(ops, isBad, from + 1);
      PositionsUnfold(ops, isBad, from);
      assert NumberedFrom(ops, 1) ==> ops[from].id == from + 1;
      if isBad(ops[from]) then [ops[from].id] + rest else rest
  }

  /** A collect-all check over operations: `(True, n)` or `(False, ids)`. On
      operations numbered 1..n the ids are the scan positions, so the report
      is exactly a `Flags` report. */
  function ScanOperations(ops: seq<Operation>, isBad: Operation -> bool): (r: ScanResult)
    ensures r.AllPass? <==> forall i :: 0 <= i < |ops| ==> !isBad(ops[i])
    ensures r.AllPass? ==> r.count == |ops|
    ensures NumberedFrom(ops, 1) ==> Flags(r, ops, isBad)
  {
    var ids := IdsWhere(ops, isBad, 0);
    assert NumberedFrom(ops, 1) ==> Verdict(|ops|, ids) == Scan(ops, isBad);
    Verdict(|ops|, ids)
  }

  /** Both amounts present, or neither. */
  function BothOrNeither(op: Operation): bool {
    op.debit.Some? == op.credit.Some?
  }

  /** Some present amount is zero or negative. */
  function HasNonPositiveAmount(op: Operation): bool {
    || (op.credit.Some? && op.credit.value <= 0)
    || (op.debit.Some? && op.debit.value <= 0)
  }

  /** The operation's correspondent account is `own`. */
  function UsesAccount(own: string): Operation -> bool {
    (op: Operation) => op.corrAccount == own
  }

  /** `each_operation_is_either_debit_or_credit`. */
  function EachOperationIsEitherDebitOrCredit(ops: seq<Operation>): (r: ScanResult)
    ensures r.AllPass? <==> forall i :: 0 <= i < |ops| ==> ops[i].debit.Some? != ops[i].credit.Some?
    ensures NumberedFrom(ops, 1) ==> Flags(r, ops, BothOrNeither)
  {
    ScanOperations(ops, BothOrNeither)
  }

  /** `each_operation_has_valid_amount`. */
  function EachOperationHasValidAmount(ops: seq<Operation>): (r: ScanResult)
    ensures r.AllPass? <==> forall i :: 0 <= i < |ops| ==>
              (ops[i].debit.Some? ==> ops[i].debit.value > 0) && (ops[i].credit.Some? ==> ops[i].credit.value > 0)
    ensures NumberedFrom(ops, 1) ==> Flags(r, ops, HasNonPositiveAmount)
  {
    ScanOperations(ops, HasNonPositiveAmount)
  }

  /** `cor_accounts_are_different_from_our`. */
  function CorAccountsDifferFromOwn(own: string, ops: seq<Operation>): (r: ScanResult)
    ensures r.AllPass? <==> forall i :: 0 <= i < |ops| ==> ops[i].corrAccount != own
    ensures NumberedFrom(ops, 1) ==> Flags(r, ops, UsesAccount(own))
  {
    ScanOperations(ops, UsesAccount(own))
  }

  datatype Side = Debit | Credit

  function Amount(op: Operation, side: Side): Option<int> {
    match side
    case Debit => op.debit
    case Credit => op.credit
  }

  /** What one operation adds to a processed total. */
  function Contribution(op: Operation, side: Side): int {
    if op.isProcessed && Amount(op, side).Some? then Amount(op, side).value else 0
  }

  /** `_calculate_processed_operation` past its assertions: the amounts of
      the given side over the processed operations that have one. */
  function ProcessedTotal(ops: seq<Operation>, side: Side): int
    decreases |ops|
  {
    if ops == [] then 0 else Contribution(ops[0], side) + ProcessedTotal(ops[1..], side)
  }

  /** Totals split over concatenation. */
  lemma {:induction false} ProcessedTotalAppend(a: seq<Operation>, b: seq<Operation>, side: Side)
    ensures ProcessedTotal(a + b, side) == ProcessedTotal(a, side) + ProcessedTotal(b, side)
    decreases |a|
  {
    if a == [] {
      assert a + b == b;
    } else {
      assert (a + b)[1..] == a[1..] + b;
      ProcessedTotalAppend(a[1..], b, side);
    }
  }

  /** An operation that is not processed, or lacks that side's amount,
      changes nothing wherever it stands. */
  lemma UncountedOperationIsIgnored(a: seq<Operation>, op: Operation, b: seq<Operation>, side: Side)
    requires !op.isProcessed || Amount(op, side).None?
    ensures ProcessedTotal(a + [op] + b, side) == ProcessedTotal(a + b, side)
  {
    ProcessedTotalAppend(a + [op], b, side);
    ProcessedTotalAppend(a, [op], side);
    ProcessedTotalAppend(a, b, side);
  }

  /** With every present amount positive, a total is never negative and is
      at least each amount it counts. */
  lemma {:induction false} ProcessedTotalBounds(ops: seq<Operation>, side: Side)
    requires forall i :: 0 <= i < |ops| ==> !HasNonPositiveAmount(ops[i])
    ensures ProcessedTotal(ops, side) >= 0
    ensures forall i :: 0 <= i < |ops| ==> Contribution(ops[i], side) <= ProcessedTotal(ops, side)
    decreases |ops|
  {
    if ops != [] {
      ProcessedTotalBounds(ops[1..], side);
      assert forall i :: 1 <= i < |ops| ==> ops[i] == ops[1..][i - 1];
    }
  }

  /** The totals accumulate forward: one more operation adds its contribution. */
  lemma ProcessedTotalSnoc(ops: seq<Operation>, op: Operation, side: Side)
    ensures ProcessedTotal(ops + [op], side) == ProcessedTotal(ops, side) + Contribution(op, side)
  {
    ProcessedTotalAppend(ops, [op], side);
    assert [op][1..] == [];
  }

  /** `_calculate_processed_operation` with its loop: fails on an operation
      set that does not pass the two amount checks, and otherwise sums the
      side's amounts of the processed operations. */
  method CalculateProcessedOperation(ops: seq<Operation>, side: Side) returns (r: Result<int, BalanceError>)
    ensures r.Failure? <==>
              EachOperationIsEitherDebitOrCredit(ops).Offending? || EachOperationHasValidAmount(ops).Offending?
    ensures r.Failure? ==> r.error == InvalidOperationSet
    ensures r.Success? ==> r.value == ProcessedTotal(ops, side) && r.value >= 0
  {
    if EachOperationIsEitherDebitOrCredit(ops).Offending? || EachOperationHasValidAmount(ops).Offending? {
      return Failure(InvalidOperationSet);
    }
    var total := 0;
    var i := 0;
    while i < |ops|
      invariant 0 <= i <= |ops|
      invariant total == ProcessedTotal(ops[..i], side)
    {
      var op := ops[i];
      ProcessedTotalSnoc(ops[..i], op, side);
      assert ops[..i + 1] == ops[..i] + [op];
      if op.isProcessed && Amount(op, side).Some? {
        total := total + Amount(op, side).value;
      }
      i := i + 1;
    }
    assert ops[..i] == ops;
    ProcessedTotalBounds(ops, side);
    return Success(total);
  }

  /** A built balance. */
  datatype Balance = Balance(
    corrAccount: string,
    operations: seq<Operation>,
    totalProcessedDebit: int,
    totalProcessedCredit: int)

  /** `Balance(self_corr_account, xml_tree_root)`: parse the operations,
      then compute both totals, each guarded by the assertions that every
      operation has exactly one amount and every amount is positive. */
  function BuildBalance(own: string, doc: NodeChecks.BalanceDocument): (r: Result<Balance, BalanceError>)
    ensures r.Success? <==>
              && ParseOperationNodes(NodeChecks.OperationNodes(doc), doc.ns).Success?
              && var ops := ParseOperationNodes(NodeChecks.OperationNodes(doc), doc.ns).value;
                 EachOperationIsEitherDebitOrCredit(ops).AllPass? && EachOperationHasValidAmount(ops).AllPass?
    ensures r.Success? ==>
              && r.value.corrAccount == own
              && ParseOperationNodes(NodeChecks.OperationNodes(doc), doc.ns) == Success(r.value.operations)
              && NumberedFrom(r.value.operations, 1)
    ensures r.Success? ==> forall i :: 0 <= i < |r.value.operations| ==>
              && r.value.operations[i].debit.Some? != r.value.operations[i].credit.Some?
              && !HasNonPositiveAmount(r.value.operations[i])
    ensures r.Success? ==> r.value.totalProcessedDebit == ProcessedTotal(r.value.operations, Debit) >= 0
    ensures r.Success? ==> r.value.totalProcessedCredit == ProcessedTotal(r.value.operations, Credit) >= 0
    ensures ParseOperationNodes(NodeChecks.OperationNodes(doc), doc.ns).Failure? ==>
              r == Failure(ParseOperationNodes(NodeChecks.OperationNodes(doc), doc.ns).error)
    ensures r == Failure(InvalidOperationSet) <==>
              && ParseOperationNodes(NodeChecks.OperationNodes(doc), doc.ns).Success?
              && var ops := ParseOperationNodes(NodeChecks.OperationNodes(doc), doc.ns).value;
                 (EachOperationIsEitherDebitOrCredit(ops).Offending? || EachOperationHasValidAmount(ops).Offending?)
  {
    match ParseOperationNodes(NodeChecks.OperationNodes(doc), doc.ns)
    case Failure(e) => Failure(e)
    case Success(ops) =>
      if EachOperationIsEitherDebitOrCredit(ops).AllPass? && EachOperationHasValidAmount(ops).AllPass? then
        ProcessedTotalBounds(ops, Debit);
        ProcessedTotalBounds(ops, Credit);
        Success(Balance(own, ops, ProcessedTotal(ops, Debit), ProcessedTotal(ops, Credit)))
      else Failure(InvalidOperationSet)
  }

  /** The `dd-mm-yyyy` texts of the operations' dates, in order. */
  function DateTexts(ops: seq<Operation>): (r: seq<string>)
    ensures |r| == |ops|
    ensures forall i :: 0 <= i < |ops| ==> r[i] == FormatDate(ops[i].date)
  {
    seq(|ops|, i requires 0 <= i < |ops| => FormatDate(ops[i].date))
  }

  /** `get_unique_dates`: the distinct `dd-mm-yyyy` texts of the dates. */
  function UniqueDates(ops: seq<Operation>): (r: set<string>)
    ensures forall i :: 0 <= i < |ops| ==> FormatDate(ops[i].date) in r
    ensures forall t :: t in r ==> exists i :: 0 <= i < |ops| && FormatDate(ops[i].date) == t
    ensures forall t :: t in r ==> |t| == 10 && t[2] == '-' && t[5] == '-'
    ensures |r| <= |ops|
  {
    var texts := DateTexts(ops);
    DistinctAtMostLength(texts);
    set t | t in texts
  }

  /** A sequence has at most as many distinct elements as it has elements. */
  lemma {:induction false} DistinctAtMostLength<T>(s: seq<T>)
    ensures |set x | x in s| <= |s|
  {
    if s != [] {
      var init := s[..|s| - 1];
      DistinctAtMostLength(init);
      assert (set x | x in s) == (set x | x in init) + {s[|s| - 1]} by {
        assert s == init + [s[|s| - 1]];
      }
    }
  }

  /** There is exactly one distinct date text iff there is at least one
      operation and all operations fall on the same calendar date. */
  lemma UniqueDatesSingleton(ops: seq<Operation>)
    requires forall i :: 0 <= i < |ops| ==> ValidDate(ops[i].date)
    ensures |UniqueDates(ops)| == 1 <==> |ops| > 0 && forall i :: 0 <= i < |ops| ==> ops[i].date == ops[0].date
  {
    var texts := DateTexts(ops);
    SingleDistinct(texts);
    SameTextSameDate(ops);
    assert UniqueDates(ops) == set t | t in texts;
  }

  /** Two valid dates have the same text exactly when they are the same date. */
  lemma SameTextSameDate(ops: seq<Operation>)
    requires forall i :: 0 <= i < |ops| ==> ValidDate(ops[i].date)
    ensures forall i :: 0 <= i < |ops| ==>
              (DateTexts(ops)[i] == DateTexts(ops)[0] <==> ops[i].date == ops[0].date)
  {
    var texts := DateTexts(ops);
    forall i | 0 <= i < |ops| ensures texts[i] == texts[0] <==> ops[i].date == ops[0].date {
      if texts[i] == texts[0] {
        FormatDateInjective(ops[i].date, ops[0].date);
      }
    }
  }

  /** A sequence has exactly one distinct element iff it is non-empty and
      every element equals the first. */
  lemma SingleDistinct<T>(s: seq<T>)
    ensures |set x | x in s| == 1 <==> |s| > 0 && forall i :: 0 <= i < |s| ==> s[i] == s[0]
  {
    var u := set x | x in s;
    if |s| > 0 && forall i :: 0 <= i < |s| ==> s[i] == s[0] {
      assert u == {s[0]};
    } else if |s| == 0 {
      assert u == {};
    } else {
      var i :| 0 <= i < |s| && s[i] != s[0];
      TwoMembers(s[0], s[i], u);
    }
  }

  /** A set holding two distinct elements has at least two. */
  lemma TwoMembers<T>(a: T, b: T, u: set<T>)
    requires a != b && a in u && b in u
    ensures |u| >= 2
  {
    assert |{a, b}| == 2;
    SubsetSize({a, b}, u);
  }

  lemma SubsetSize<T>(small: set<T>, big: set<T>)
    requires small <= big
    ensures |small| <= |big|
  {
    assert big == small + (big - small);
  }

  /** A node lacking the `data` attribute cannot be turned into an
      operation: the balance is not built, whatever its `date` attribute
      says. */
  lemma MissingDataAttributeRejects(own: string, doc: NodeChecks.BalanceDocument, i: nat)
    requires i < |NodeChecks.OperationNodes(doc)|
    requires "data" !in NodeChecks.OperationNodes(doc)[i].attrs
    ensures BuildBalance(own, doc).Failure?
    ensures BuildBalance(own, doc).error.OperationRejected?
  {
    var nodes := NodeChecks.OperationNodes(doc);
    assert OperationFromNode(nodes[i], doc.ns, i + 1).Failure?;
  }

  /** A completed debit of 100, a completed credit of 50 and a pending debit
      of 20: the processed totals are 100 and 50, the pending debit is not counted. */
  lemma PendingOperationExample(d: Date, acc: string)
    ensures var ops := [Operation(1, true, d, acc, Some(100), None),
                        Operation(2, true, d, acc, None, Some(50)),
                        Operation(3, false, d, acc, Some(20), None)];
            && EachOperationIsEitherDebitOrCredit(ops).AllPass?
            && EachOperationHasValidAmount(ops).AllPass?
            && ProcessedTotal(ops, Debit) == 100
            && ProcessedTotal(ops, Credit) == 50
  {
    var ops := [Operation(1, true, d, acc, Some(100), None),
                Operation(2, true, d, acc, None, Some(50)),
                Operation(3, false, d, acc, Some(20), None)];
    var tail := [Operation(2, true, d, acc, None, Some(50)), Operation(3, false, d, acc, Some(20), None)];
    var last := [Operation(3, false, d, acc, Some(20), None)];
    assert ops[1..] == tail && tail[1..] == last && last[1..] == [];
    assert ProcessedTotal([], Debit) == 0 && ProcessedTotal([], Credit) == 0;
    assert ProcessedTotal(last, Debit) == 0;
    assert ProcessedTotal(last, Credit) == 0;
    assert ProcessedTotal(tail, Debit) == 0 && ProcessedTotal(tail, Credit) == 50;
    assert IdsWhere(ops, BothOrNeither, 0) == [];
    assert IdsWhere(ops, HasNonPositiveAmount, 0) == [];
  }
}

=== FILE: epd_headers.dfy ===
/** The header and per-document checks of a payment packet (PacketEPD),
    each stated over the packet root's attribute map and its `ED101`
    children in document order (`find_all("ED101")`). Every check returns
    its findings; it passes exactly when there are none. Checks whose source
    is a plain `assert` inside a loop stop at the first failure and so
    report at most one finding; checks wrapped in a soft-assert block per
    document or per attribute report one finding per failing item. */
module EpdHeaders {
  import opened Wrappers
  import opened Scans
  import opened XmlTree
  import Text
  import NodeChecks

  /** The system code every packet and document must carry. */
  const EXPECTED_SYSTEM_CODE: string := "01"

  /** Where a finding was made: the packet header or the ED101 at a 1-based position. */
  datatype Location = Header | Document(position: nat)

  datatype Party = PayerParty | PayeeParty

  function PartyTag(p: Party): string {
    match p
    case PayerParty => "Payer"
    case PayeeParty => "Payee"
  }

  datatype Finding =
    | MissingInEd807(name: string)              // mandatory attribute absent from the directory header
    | MissingInEpd(name: string)                // mandatory attribute absent from the packet header
    | HeaderValuesDiffer(name: string)          // mandatory attribute present in both, values differ
    | Missing(at: Location, name: string)       // an attribute the check reads is absent
    | NotAnInteger(at: Location, name: string)  // int() raised on the attribute's text
    | QuantityMismatch(header: int, documents: nat)
    | DocumentsLackSum(positions: seq<nat>)
    | SumMismatch(header: int, total: int)
    | WrongSystemCode(at: Location)
    | DateDiffers(position: nat)
    | AuthorDiffers(position: nat)
    | EdNoOutOfSequence(position: nat, value: int)
    | PartyMissing(party: Party, position: nat)                  // no Payer/Payee child: the source raises
    | RequisiteMissing(party: Party, position: nat, name: string) // no Bank, or Bank lacks BIC/CorrespAcc

  // ---------------------------------------------------------------------
  // Mandatory header attributes equal across the directory and the packet

  predicate AgreesOn(name: string, ed807: map<string, string>, epd: map<string, string>) {
    name in ed807 && name in epd && ed807[name] == epd[name]
  }

  /** What the soft-assert block reports for one mandatory attribute: the
      first of its three assertions that fails, if any. */
  function MandatoryAttrFinding(name: string, ed807: map<string, string>, epd: map<string, string>): (r: Option<Finding>)
    ensures r.None? <==> AgreesOn(name, ed807, epd)
    ensures r.Some? ==> (r.value.MissingInEd807? || r.value.MissingInEpd? || r.value.HeaderValuesDiffer?)
    ensures r.Some? ==> r.value.name == name
  {
    if name !in ed807 then Some(MissingInEd807(name))
    else if name !in epd then Some(MissingInEpd(name))
    else if ed807[name] != epd[name] then Some(HeaderValuesDiffer(name))
    else None
  }

  /** The mandatory attributes the two headers do not agree on. */
  function Disagrees(ed807: map<string, string>, epd: map<string, string>): string -> bool {
    n => !AgreesOn(n, ed807, epd)
  }

  /** `test_root_headers_mandatory_values_equal_ed807`: one soft-assert
      block per mandatory attribute, each reporting its first failing
      assertion. There is one finding per disagreeing attribute: a missing
      one in the directory's header, else a missing one in the packet's,
      else differing values. */
  function MandatoryHeaderFindings(mandatory: seq<string>, ed807: map<string, string>, epd: map<string, string>)
    : (r: seq<Finding>)
    ensures r == [] <==> forall k :: 0 <= k < |mandatory| ==> AgreesOn(mandatory[k], ed807, epd)
    ensures |r| == |PositionsFrom(mandatory, Disagrees(ed807, epd), 0)|
    ensures forall k :: 0 <= k < |mandatory| && mandatory[k] !in ed807 ==> MissingInEd807(mandatory[k]) in r
    ensures forall k :: 0 <= k < |mandatory| && mandatory[k] in ed807 && mandatory[k] !in epd ==>
              MissingInEpd(mandatory[k]) in r
    ensures forall k :: (0 <= k < |mandatory| && mandatory[k] in ed807 && mandatory[k] in epd
                         && ed807[mandatory[k]] != epd[mandatory[k]]) ==>
              HeaderValuesDiffer(mandatory[k]) in r
    ensures forall f :: f in r ==>
              && (f.MissingInEd807? || f.MissingInEpd? || f.HeaderValuesDiffer?)
              && f.name in mandatory && MandatoryAttrFinding(f.name, ed807, epd) == Some(f)
    ensures var ps := PositionsFrom(mandatory, Disagrees(ed807, epd), 0);
            forall j :: 0 <= j < |r| ==> MandatoryAttrFinding(mandatory[ps[j] - 1], ed807, epd) == Some(r[j])
  {
    MandatoryFindingsFacts(mandatory, ed807, epd);
    MandatoryFindingsOrdered(mandatory, ed807, epd);
    MandatoryFindingsKinds(mandatory, ed807, epd);
    MandatoryFindingsSound(mandatory, ed807, epd);
    FindingsFrom(mandatory, AttrFindingAt(ed807, epd), 0)
  }

  /** The per-attribute finding, as the generic walk takes it. */
  function AttrFindingAt(ed807: map<string, string>, epd: map<string, string>): (string, nat) -> Option<Finding> {
    (n: string, _: nat) => MandatoryAttrFinding(n, ed807, epd)
  }

  lemma AttrFindingForDisagreeing(mandatory: seq<string>, ed807: map<string, string>, epd: map<string, string>)
    ensures forall i :: 0 <= i < |mandatory| ==>
              (AttrFindingAt(ed807, epd)(mandatory[i], i + 1).Some? <==> Disagrees(ed807, epd)(mandatory[i]))
  {
  }

  lemma MandatoryFindingsFacts(mandatory: seq<string>, ed807: map<string, string>, epd: map<string, string>)
    ensures var r := FindingsFrom(mandatory, AttrFindingAt(ed807, epd), 0);
            && (r == [] <==> forall k :: 0 <= k < |mandatory| ==> AgreesOn(mandatory[k], ed807, epd))
            && |r| == |PositionsFrom(mandatory, Disagrees(ed807, epd), 0)|
            && (forall k :: 0 <= k < |mandatory| && !AgreesOn(mandatory[k], ed807, epd) ==>
                  MandatoryAttrFinding(mandatory[k], ed807, epd).value in r)
  {
    AttrFindingForDisagreeing(mandatory, ed807, epd);
    FindingsOfBadElements(mandatory, AttrFindingAt(ed807, epd), Disagrees(ed807, epd), 0);
  }

  lemma MandatoryFindingsKinds(mandatory: seq<string>, ed807: map<string, string>, epd: map<string, string>)
    ensures var r := FindingsFrom(mandatory, AttrFindingAt(ed807, epd), 0);
            && (forall k :: 0 <= k < |mandatory| && mandatory[k] !in ed807 ==> MissingInEd807(mandatory[k]) in r)
            && (forall k :: 0 <= k < |mandatory| && mandatory[k] in ed807 && mandatory[k] !in epd ==>
                  MissingInEpd(mandatory[k]) in r)
            && (forall k :: (0 <= k < |mandatory| && mandatory[k] in ed807 && mandatory[k] in epd
                             && ed807[mandatory[k]] != epd[mandatory[k]]) ==>
                  HeaderValuesDiffer(mandatory[k]) in r)
  {
    var r := FindingsFrom(mandatory, AttrFindingAt(ed807, epd), 0);
    MandatoryFindingsFacts(mandatory, ed807, epd);
    forall k | 0 <= k < |mandatory| && !AgreesOn(mandatory[k], ed807, epd)
      ensures MandatoryAttrFinding(mandatory[k], ed807, epd).value in r
    {
    }
    forall k | 0 <= k < |mandatory| && mandatory[k] !in ed807 ensures MissingInEd807(mandatory[k]) in r {
      assert MandatoryAttrFinding(mandatory[k], ed807, epd) == Some(MissingInEd807(mandatory[k]));
    }
    forall k | 0 <= k < |mandatory| && mandatory[k] in ed807 && mandatory[k] !in epd
      ensures MissingInEpd(mandatory[k]) in r
    {
      assert MandatoryAttrFinding(mandatory[k], ed807, epd) == Some(MissingInEpd(mandatory[k]));
    }
    forall k | (0 <= k < |mandatory| && mandatory[k] in ed807 && mandatory[k] in epd
                && ed807[mandatory[k]] != epd[mandatory[k]])
      ensures HeaderValuesDiffer(mandatory[k]) in r
    {
      assert MandatoryAttrFinding(mandatory[k], ed807, epd) == Some(HeaderValuesDiffer(mandatory[k]));
    }
  }

  /** The `j`-th finding is that of the `j`-th disagreeing attribute. */
  lemma MandatoryFindingsOrdered(mandatory: seq<string>, ed807: map<string, string>, epd: map<string, string>)
    ensures var r := FindingsFrom(mandatory, AttrFindingAt(ed807, epd), 0);
            var ps := PositionsFrom(mandatory, Disagrees(ed807, epd), 0);
            && |r| == |ps|
            && forall j :: 0 <= j < |r| ==> MandatoryAttrFinding(mandatory[ps[j] - 1], ed807, epd) == Some(r[j])
  {
    var r := FindingsFrom(mandatory, AttrFindingAt(ed807, epd), 0);
    var ps := PositionsFrom(mandatory, Disagrees(ed807, epd), 0);
    AttrFindingForDisagreeing(mandatory, ed807, epd);
    FindingsInPositionOrder(mandatory, AttrFindingAt(ed807, epd), Disagrees(ed807, epd), 0);
    forall j | 0 <= j < |r|
      ensures MandatoryAttrFinding(mandatory[ps[j] - 1], ed807, epd) == Some(r[j])
    {
      assert AttrFindingAt(ed807, epd)(mandatory[ps[j] - 1], ps[j]) == Some(r[j]);
    }
  }

  lemma MandatoryFindingsSound(mandatory: seq<string>, ed807: map<string, string>, epd: map<string, string>)
    ensures forall f :: f in FindingsFrom(mandatory, AttrFindingAt(ed807, epd), 0) ==>
              && (f.MissingInEd807? || f.MissingInEpd? || f.HeaderValuesDiffer?)
              && f.name in mandatory && MandatoryAttrFinding(f.name, ed807, epd) == Some(f)
  {
    var r := FindingsFrom(mandatory, AttrFindingAt(ed807, epd), 0);
    FindingsHaveOrigins(mandatory, AttrFindingAt(ed807, epd), 0);
    forall f | f in r
      ensures (f.MissingInEd807? || f.MissingInEpd? || f.HeaderValuesDiffer?)
      ensures f.name in mandatory && MandatoryAttrFinding(f.name, ed807, epd) == Some(f)
    {
      var i :| 0 <= i < |mandatory| && AttrFindingAt(ed807, epd)(mandatory[i], i + 1) == Some(f);
      assert MandatoryAttrFinding(mandatory[i], ed807, epd) == Some(f);
    }
  }

  // ---------------------------------------------------------------------
  // EDQuantity

  /** `test_root_headers_EDQuantity_equals_ed101_amount`. */
  function EdQuantityFindings(header: map<string, string>, docs: seq<Element>): (r: seq<Finding>)
    ensures r == [] <==> "EDQuantity" in header && Text.ParseInt(header["EDQuantity"]) == Some(|docs|)
    ensures |r| <= 1
    ensures "EDQuantity" in header && Text.ParseInt(header["EDQuantity"]).Some?
              && Text.ParseInt(header["EDQuantity"]).value != |docs| ==>
              r == [QuantityMismatch(Text.ParseInt(header["EDQuantity"]).value, |docs|)]
  {
    if "EDQuantity" !in header then [Missing(Header, "EDQuantity")]
    else
      match Text.ParseInt(header["EDQuantity"])
      case None => [NotAnInteger(Header, "EDQuantity")]
      case Some(q) => if q == |docs| then [] else [QuantityMismatch(q, |docs|)]
  }

  // ---------------------------------------------------------------------
  // Sum

  /** The document's `Sum` as an integer, when it has one. */
  function DocSum(d: Element): Option<int> {
    if "Sum" in d.attrs then Text.ParseInt(d.attrs["Sum"]) else None
  }

  /** The sum of the documents' `Sum` values (a document without an integer
      `Sum` adds nothing; the check never sums such a list). */
  function TotalSum(docs: seq<Element>): int
    decreases |docs|
  {
    if docs == [] then 0 else DocSum(docs[0]).GetOr(0) + TotalSum(docs[1..])
  }

  function NoIntegerSum(d: Element): bool {
    DocSum(d).None?
  }

  predicate EveryDocHasSum(docs: seq<Element>) {
    forall i :: 0 <= i < |docs| ==> "Sum" in docs[i].attrs
  }

  predicate EveryDocSumIsInteger(docs: seq<Element>) {
    forall i :: 0 <= i < |docs| ==> DocSum(docs[i]).Some?
  }

  /** `test_root_headers_Sum_equals_ed101_sum`. Its presence guard tests
      `EDQuantity`, not `Sum`; a header without `Sum` then fails on lookup. */
  function SumFindings(header: map<string, string>, docs: seq<Element>): (r: seq<Finding>)
    ensures r == [] <==>
              && "EDQuantity" in header
              && (forall i :: 0 <= i < |docs| ==> DocSum(docs[i]).Some?)
              && "Sum" in header
              && Text.ParseInt(header["Sum"]) == Some(TotalSum(docs))
    ensures |r| <= 1
    ensures "EDQuantity" !in header ==> r == [Missing(Header, "EDQuantity")]
    ensures "EDQuantity" in header && (exists i :: 0 <= i < |docs| && "Sum" !in docs[i].attrs) ==>
              r == [DocumentsLackSum(NodeChecks.AllContainAttrib(docs, "Sum").positions)]
    ensures forall i :: (&& "EDQuantity" in header && EveryDocHasSum(docs)
                         && 0 <= i < |docs| && NoIntegerSum(docs[i])
                         && forall j :: 0 <= j < i ==> !NoIntegerSum(docs[j])) ==>
              r == [NotAnInteger(Document(i + 1), "Sum")]
    ensures "EDQuantity" in header && EveryDocHasSum(docs) && EveryDocSumIsInteger(docs) ==>
              && ("Sum" !in header ==> r == [Missing(Header, "Sum")])
              && ("Sum" in header && Text.ParseInt(header["Sum"]).None? ==> r == [NotAnInteger(Header, "Sum")])
              && ("Sum" in header && Text.ParseInt(header["Sum"]).Some?
                  && Text.ParseInt(header["Sum"]).value != TotalSum(docs) ==>
                    r == [SumMismatch(Text.ParseInt(header["Sum"]).value, TotalSum(docs))])
  {
    if "EDQuantity" !in header then [Missing(Header, "EDQuantity")]
    else
      match NodeChecks.AllContainAttrib(docs, "Sum")
      case Offending(ps) => [DocumentsLackSum(ps)]
      case AllPass(_) =>
        assert forall i :: 0 <= i < |docs| ==> "Sum" in docs[i].attrs
          by { assert forall i :: 0 <= i < |docs| ==> !NodeChecks.LacksAttr("Sum")(docs[i]); }
        match FirstWhere(docs, NoIntegerSum)
        case Some(i) => [NotAnInteger(Document(i + 1), "Sum")]
        case None =>
          if "Sum" !in header then [Missing(Header, "Sum")]
          else
            match Text.ParseInt(header["Sum"])
            case None => [NotAnInteger(Header, "Sum")]
            case Some(h) => if h == TotalSum(docs) then [] else [SumMismatch(h, TotalSum(docs))]
  }

  // ---------------------------------------------------------------------
  // SystemCode

  function WrongDocSystemCode(d: Element): bool {
    Attr(d, "SystemCode") != Some(EXPECTED_SYSTEM_CODE)
  }

  /** `test_SystemCode_is_correct_everywhere`: one soft-assert block, so
      the first failing assertion ends it. */
  function SystemCodeFindings(header: map<string, string>, docs: seq<Element>): (r: seq<Finding>)
    ensures r == [] <==>
              && "SystemCode" in header && header["SystemCode"] == EXPECTED_SYSTEM_CODE
              && forall i :: 0 <= i < |docs| ==> Attr(docs[i], "SystemCode") == Some(EXPECTED_SYSTEM_CODE)
    ensures |r| <= 1
    ensures "SystemCode" !in header ==> r == [Missing(Header, "SystemCode")]
    ensures "SystemCode" in header && header["SystemCode"] != EXPECTED_SYSTEM_CODE ==> r == [WrongSystemCode(Header)]
    ensures "SystemCode" in header && header["SystemCode"] == EXPECTED_SYSTEM_CODE && r != [] ==>
              r[0].WrongSystemCode? && r[0].at.Document?
    ensures forall p: nat :: r == [WrongSystemCode(Document(p))] ==>
              && 1 <= p <= |docs| && WrongDocSystemCode(docs[p - 1])
              && forall i :: 0 <= i < p - 1 ==> !WrongDocSystemCode(docs[i])
  {
    if "SystemCode" !in header then [Missing(Header, "SystemCode")]
    else if header["SystemCode"] != EXPECTED_SYSTEM_CODE then [WrongSystemCode(Header)]
    else
      match FirstWhere(docs, WrongDocSystemCode)
      case Some(i) => [WrongSystemCode(Document(i + 1))]
      case None => []
  }

  // ---------------------------------------------------------------------
  // EDDate / EDAuthor

  /** What the soft-assert block reports for the document at 1-based
      `position`: a differing date, or else a differing author, if any. */
  function DocFinding(d: Element, date: string, author: string, position: nat): (r: Option<Finding>)
    ensures r.None? <==> Attr(d, "EDDate") == Some(date) && Attr(d, "EDAuthor") == Some(author)
    ensures r.Some? ==> (r.value.DateDiffers? || r.value.AuthorDiffers?) && r.value.position == position
    ensures r.Some? ==> (r.value.DateDiffers? <==> Attr(d, "EDDate") != Some(date))
  {
    if Attr(d, "EDDate") != Some(date) then Some(DateDiffers(position))
    else if Attr(d, "EDAuthor") != Some(author) then Some(AuthorDiffers(position))
    else None
  }

  /** The documents whose date or author differs from the header's. */
  function DocDisagrees(date: string, author: string): Element -> bool {
    d => !(Attr(d, "EDDate") == Some(date) && Attr(d, "EDAuthor") == Some(author))
  }

  /** One soft-assert block per document, date first. Nothing is reported
      iff every document agrees on both values; there is one finding per
      disagreeing document: a differing date is reported as such, an
      author only when the date agrees, and each finding names a document
      that disagrees for that reason. */
  function DocDateAuthorFindings(docs: seq<Element>, date: string, author: string): (r: seq<Finding>)
    ensures r == [] <==> forall i :: 0 <= i < |docs| ==>
              Attr(docs[i], "EDDate") == Some(date) && Attr(docs[i], "EDAuthor") == Some(author)
    ensures |r| == |PositionsFrom(docs, DocDisagrees(date, author), 0)|
    ensures forall i :: 0 <= i < |docs| && Attr(docs[i], "EDDate") != Some(date) ==> DateDiffers(i + 1) in r
    ensures forall i :: (0 <= i < |docs| && Attr(docs[i], "EDDate") == Some(date)
                         && Attr(docs[i], "EDAuthor") != Some(author)) ==> AuthorDiffers(i + 1) in r
    ensures forall f :: f in r ==>
              && (f.DateDiffers? || f.AuthorDiffers?) && 0 < f.position <= |docs|
              && DocFinding(docs[f.position - 1], date, author, f.position) == Some(f)
    ensures var ps := PositionsFrom(docs, DocDisagrees(date, author), 0);
            forall j :: 0 <= j < |r| ==> DocFinding(docs[ps[j] - 1], date, author, ps[j]) == Some(r[j])
  {
    DocFindingsFacts(docs, date, author);
    DocFindingsOrdered(docs, date, author);
    DocFindingsComplete(docs, date, author);
    DocFindingsSound(docs, date, author);
    FindingsFrom(docs, DocFindingAt(date, author), 0)
  }

  /** The per-document finding, as the generic walk takes it. */
  function DocFindingAt(date: string, author: string): (Element, nat) -> Option<Finding> {
    (d: Element, position: nat) => DocFinding(d, date, author, position)
  }

  lemma DocFindingForDisagreeing(docs: seq<Element>, date: string, author: string)
    ensures forall i :: 0 <= i < |docs| ==>
              (DocFindingAt(date, author)(docs[i], i + 1).Some? <==> DocDisagrees(date, author)(docs[i]))
  {
  }

  lemma DocFindingsFacts(docs: seq<Element>, date: string, author: string)
    ensures var r := FindingsFrom(docs, DocFindingAt(date, author), 0);
            && (r == [] <==> forall i :: 0 <= i < |docs| ==>
                  Attr(docs[i], "EDDate") == Some(date) && Attr(docs[i], "EDAuthor") == Some(author))
            && |r| == |PositionsFrom(docs, DocDisagrees(date, author), 0)|
  {
    DocFindingForDisagreeing(docs, date, author);
    FindingsOfBadElements(docs, DocFindingAt(date, author), DocDisagrees(date, author), 0);
    var r := FindingsFrom(docs, DocFindingAt(date, author), 0);
    assert r == [] <==> forall i :: 0 <= i < |docs| ==> !DocDisagrees(date, author)(docs[i]);
  }

  lemma DocFindingsComplete(docs: seq<Element>, date: string, author: string)
    ensures var r := FindingsFrom(docs, DocFindingAt(date, author), 0);
            && (forall i :: 0 <= i < |docs| && Attr(docs[i], "EDDate") != Some(date) ==> DateDiffers(i + 1) in r)
            && (forall i :: (0 <= i < |docs| && Attr(docs[i], "EDDate") == Some(date)
                             && Attr(docs[i], "EDAuthor") != Some(author)) ==> AuthorDiffers(i + 1) in r)
  {
    var r := FindingsFrom(docs, DocFindingAt(date, author), 0);
    DocFindingForDisagreeing(docs, date, author);
    FindingsOfBadElements(docs, DocFindingAt(date, author), DocDisagrees(date, author), 0);
    forall i | 0 <= i < |docs| && DocDisagrees(date, author)(docs[i])
      ensures DocFinding(docs[i], date, author, i + 1).value in r
    {
      assert DocFindingAt(date, author)(docs[i], i + 1) == DocFinding(docs[i], date, author, i + 1);
    }
  }

  lemma DocFindingsSound(docs: seq<Element>, date: string, author: string)
    ensures forall f :: f in FindingsFrom(docs, DocFindingAt(date, author), 0) ==>
              && (f.DateDiffers? || f.AuthorDiffers?) && 0 < f.position <= |docs|
              && DocFinding(docs[f.position - 1], date, author, f.position) == Some(f)
  {
    var r := FindingsFrom(docs, DocFindingAt(date, author), 0);
    FindingsHaveOrigins(docs, DocFindingAt(date, author), 0);
    forall f | f in r
      ensures (f.DateDiffers? || f.AuthorDiffers?) && 0 < f.position <= |docs|
      ensures DocFinding(docs[f.position - 1], date, author, f.position) == Some(f)
    {
      var i :| 0 <= i < |docs| && DocFindingAt(date, author)(docs[i], i + 1) == Some(f);
      DocFindingOrigin(docs[i], date, author, i + 1, f);
    }
  }

  /** The `j`-th finding is that of the `j`-th disagreeing document. */
  lemma DocFindingsOrdered(docs: seq<Element>, date: string, author: string)
    ensures var r := FindingsFrom(docs, DocFindingAt(date, author), 0);
            var ps := PositionsFrom(docs, DocDisagrees(date, author), 0);
            && |r| == |ps|
            && forall j :: 0 <= j < |r| ==> DocFinding(docs[ps[j] - 1], date, author, ps[j]) == Some(r[j])
  {
    var r := FindingsFrom(docs, DocFindingAt(date, author), 0);
    var ps := PositionsFrom(docs, DocDisagrees(date, author), 0);
    DocFindingForDisagreeing(docs, date, author);
    FindingsInPositionOrder(docs, DocFindingAt(date, author), DocDisagrees(date, author), 0);
    forall j | 0 <= j < |r|
      ensures DocFinding(docs[ps[j] - 1], date, author, ps[j]) == Some(r[j])
    {
      assert DocFindingAt(date, author)(docs[ps[j] - 1], ps[j]) == Some(r[j]);
    }
  }

  lemma DocFindingOrigin(d: Element, date: string, author: string, position: nat, f: Finding)
    requires DocFindingAt(date, author)(d, position) == Some(f)
    ensures (f.DateDiffers? || f.AuthorDiffers?) && f.position == position
    ensures DocFinding(d, date, author, position) == Some(f)
  {
    assert DocFindingAt(date, author)(d, position) == DocFinding(d, date, author, position);
  }

  /** `test_ED101_date_author_are_equal_to_header`: the header values are
      looked up first (a missing one raises), then every document is checked. */
  function DateAuthorFindings(header: map<string, string>, docs: seq<Element>): (r: seq<Finding>)
    ensures r == [] <==>
              && "EDDate" in header && "EDAuthor" in header
              && forall i :: 0 <= i < |docs| ==>
                   Attr(docs[i], "EDDate") == Some(header["EDDate"])
                   && Attr(docs[i], "EDAuthor") == Some(header["EDAuthor"])
    ensures "EDDate" !in header ==> r == [Missing(Header, "EDDate")]
    ensures "EDDate" in header && "EDAuthor" !in header ==> r == [Missing(Header, "EDAuthor")]
    ensures "EDDate" in header && "EDAuthor" in header ==>
              r == DocDateAuthorFindings(docs, header["EDDate"], header["EDAuthor"])
  {
    if "EDDate" !in header then [Missing(Header, "EDDate")]
    else if "EDAuthor" !in header then [Missing(Header, "EDAuthor")]
    else DocDateAuthorFindings(docs, header["EDDate"], header["EDAuthor"])
  }

  // ---------------------------------------------------------------------
  // EDNo

  /** The document at 0-based index `i` carries `EDNo` equal to `i + 1`. */
  predicate EdNoInPlace(docs: seq<Element>, i: nat)
    requires i < |docs|
  {
    Text.ParseInt(AttrOr(docs[i], "EDNo", "")) == Some(i + 1)
  }

  /** The first index from `from` on whose `EDNo` is out of place. */
  function FirstEdNoViolation(docs: seq<Element>, from: nat): (r: Option<nat>)
    requires from <= |docs|
    ensures r.None? <==> forall i :: from <= i < |docs| ==> EdNoInPlace(docs, i)
    ensures r.Some? ==> from <= r.value < |docs| && !EdNoInPlace(docs, r.value)
    ensures r.Some? ==> forall i :: from <= i < r.value ==> EdNoInPlace(docs, i)
    decreases |docs| - from
  {
    if from == |docs| then None
    else if !EdNoInPlace(docs, from) then Some(from)
    else FirstEdNoViolation(docs, from + 1)
  }

  /** What the failing assertion reports about the document at a 1-based position. */
  function EdNoFinding(d: Element, position: nat): Finding {
    if "EDNo" !in d.attrs then Missing(Document(position), "EDNo")
    else
      match Text.ParseInt(d.attrs["EDNo"])
      case None => NotAnInteger(Document(position), "EDNo")
      case Some(v) => EdNoOutOfSequence(position, v)
  }

  /** `test_ED101_EDNo_increments_by_one`: a plain assertion per document,
      so the check stops at the first document out of place. */
  function EdNoFindings(docs: seq<Element>): (r: seq<Finding>)
    ensures r == [] <==> forall i :: 0 <= i < |docs| ==> EdNoInPlace(docs, i)
    ensures r != [] ==>
              exists i :: 0 <= i < |docs| && !EdNoInPlace(docs, i)
                && r == [EdNoFinding(docs[i], i + 1)]
                && (forall j :: 0 <= j < i ==> EdNoInPlace(docs, j))
  {
    match FirstEdNoViolation(docs, 0)
    case None => []
    case Some(i) =>
      assert !EdNoInPlace(docs, i);
      [EdNoFinding(docs[i], i + 1)]
  }

  // ---------------------------------------------------------------------
  // Payer/Payee bank requisites

  /** The document has no payer (or payee) child. */
  predicate LacksParty(d: Element, party: Party) {
    FindChild(d, PartyTag(party)).None?
  }

  function MissesParty(party: Party): Element -> bool {
    (d: Element) => LacksParty(d, party)
  }

  /** The `Bank` child of the document's payer or payee, if both exist. */
  function BankOf(d: Element, party: Party): Option<Element> {
    match FindChild(d, PartyTag(party))
    case Some(p) => FindChild(p, "Bank")
    case None => None
  }

  /** The party's bank is present and carries both `BIC` and `CorrespAcc`. */
  predicate BankComplete(d: Element, party: Party) {
    BankOf(d, party).Some? && "BIC" in BankOf(d, party).value.attrs
    && "CorrespAcc" in BankOf(d, party).value.attrs
  }

  /** The first thing missing from a document's party bank, if any. */
  function BankGap(d: Element, party: Party): (r: Option<string>)
    ensures r.None? <==> BankComplete(d, party)
  {
    match BankOf(d, party)
    case None => Some("Bank")
    case Some(bank) =>
      if "BIC" !in bank.attrs then Some("BIC")
      else if "CorrespAcc" !in bank.attrs then Some("CorrespAcc")
      else None
  }

  function HasBankGap(party: Party): Element -> bool {
    (d: Element) => BankGap(d, party).Some?
  }

  /** The assertion loop over one party's banks: it stops at the first
      document whose bank is missing or incomplete. */
  function BankFindings(docs: seq<Element>, party: Party): (r: seq<Finding>)
    ensures r == [] <==> forall i :: 0 <= i < |docs| ==> BankComplete(docs[i], party)
    ensures r != [] ==>
              exists i :: 0 <= i < |docs| && !BankComplete(docs[i], party)
                && r == [RequisiteMissing(party, i + 1, BankGap(docs[i], party).value)]
                && (forall j :: 0 <= j < i ==> BankComplete(docs[j], party))
  {
    match FirstWhere(docs, HasBankGap(party))
    case Some(i) =>
      assert !BankComplete(docs[i], party);
      [RequisiteMissing(party, i + 1, BankGap(docs[i], party).value)]
    case None =>
      assert forall i :: 0 <= i < |docs| ==> !HasBankGap(party)(docs[i]);
      []
  }

  lemma FirstLackingParty(docs: seq<Element>, party: Party, i: nat)
    requires FirstWhere(docs, MissesParty(party)) == Some(i)
    ensures i < |docs| && LacksParty(docs[i], party)
    ensures forall j :: 0 <= j < i ==> !LacksParty(docs[j], party)
  {
    assert MissesParty(party)(docs[i]);
    assert forall j :: 0 <= j < i ==> !MissesParty(party)(docs[j]);
  }

  lemma NoneLackingParty(docs: seq<Element>, party: Party)
    requires FirstWhere(docs, MissesParty(party)).None?
    ensures forall j :: 0 <= j < |docs| ==> !LacksParty(docs[j], party)
  {
    assert forall j :: 0 <= j < |docs| ==> !MissesParty(party)(docs[j]);
  }

  /** Gathering the banks: the first document without a payer, or failing
      that the first without a payee, makes the gathering raise. */
  function PartyGap(docs: seq<Element>): (r: Option<Finding>)
    ensures r.None? <==> forall i :: 0 <= i < |docs| ==>
              !LacksParty(docs[i], PayerParty) && !LacksParty(docs[i], PayeeParty)
    ensures r.Some? ==>
              && r.value.PartyMissing?
              && 1 <= r.value.position <= |docs| && LacksParty(docs[r.value.position - 1], r.value.party)
              && (forall j :: 0 <= j < r.value.position - 1 ==> !LacksParty(docs[j], r.value.party))
    ensures (exists i :: 0 <= i < |docs| && LacksParty(docs[i], PayerParty)) <==>
              r.Some? && r.value.party == PayerParty
    ensures r.Some? && r.value.party == PayeeParty ==>
              forall j :: 0 <= j < |docs| ==> !LacksParty(docs[j], PayerParty)
  {
    match FirstWhere(docs, MissesParty(PayerParty))
    case Some(i) =>
      FirstLackingParty(docs, PayerParty, i);
      Some(PartyMissing(PayerParty, i + 1))
    case None =>
      NoneLackingParty(docs, PayerParty);
      match FirstWhere(docs, MissesParty(PayeeParty))
      case Some(i) =>
        FirstLackingParty(docs, PayeeParty, i);
        Some(PartyMissing(PayeeParty, i + 1))
      case None =>
        NoneLackingParty(docs, PayeeParty);
        None
  }

  /** `test_ED101_has_required_requisites`: the payer banks of every
      document are gathered first (a missing payer raises), then the payee
      banks; then every payer bank is checked, then every payee bank, each
      plain assertion stopping the check. */
  function RequisitesFindings(docs: seq<Element>): (r: seq<Finding>)
    ensures r == [] <==> forall i :: 0 <= i < |docs| ==>
              BankComplete(docs[i], PayerParty) && BankComplete(docs[i], PayeeParty)
    ensures |r| <= 1
    ensures forall f :: r == [f] && f.RequisiteMissing? && f.party == PayeeParty ==>
              forall i :: 0 <= i < |docs| ==> BankComplete(docs[i], PayerParty)
    ensures (exists i :: 0 <= i < |docs| && LacksParty(docs[i], PayerParty)) ==>
              |r| == 1 && r[0].PartyMissing? && r[0].party == PayerParty
    ensures (&& (forall i :: 0 <= i < |docs| ==> !LacksParty(docs[i], PayerParty))
             && (exists i :: 0 <= i < |docs| && LacksParty(docs[i], PayeeParty))) ==>
              |r| == 1 && r[0].PartyMissing? && r[0].party == PayeeParty
    ensures r != [] && r[0].PartyMissing? ==>
              var party, n := r[0].party, r[0].position;
              && 1 <= n <= |docs| && LacksParty(docs[n - 1], party)
              && (forall j :: 0 <= j < n - 1 ==> !LacksParty(docs[j], party))
              && (party == PayeeParty ==> forall j :: 0 <= j < |docs| ==> !LacksParty(docs[j], PayerParty))
    ensures (forall i :: 0 <= i < |docs| ==> !LacksParty(docs[i], PayerParty) && !LacksParty(docs[i], PayeeParty)) ==>
              r == (if BankFindings(docs, PayerParty) != [] then BankFindings(docs, PayerParty)
                    else BankFindings(docs, PayeeParty))
  {
    match PartyGap(docs)
    case Some(f) =>
      assert !BankComplete(docs[f.position - 1], f.party);
      [f]
    case None =>
      var payer := BankFindings(docs, PayerParty);
      if payer != [] then payer else BankFindings(docs, PayeeParty)
  }

  // ---------------------------------------------------------------------
  // Worked examples

  function DocNumbered(edNo: string): Element {
    Element("ED101", map["EDNo" := edNo], None, [])
  }

  /** A packet numbered 1, 2, 3 passes; one numbered 1, 3, 2 or 1, 1, 2
      fails at its second document and the check stops there. */
  lemma EdNoExamples()
    ensures EdNoFindings([DocNumbered("1"), DocNumbered("2"), DocNumbered("3")]) == []
    ensures EdNoFindings([DocNumbered("1"), DocNumbered("3"), DocNumbered("2")]) == [EdNoOutOfSequence(2, 3)]
    ensures EdNoFindings([DocNumbered("1"), DocNumbered("1"), DocNumbered("2")]) == [EdNoOutOfSequence(2, 1)]
  {
    assert Text.ParseInt("1") == Some(1) by { Text.ParseIntRoundTrip(1); }
    assert Text.ParseInt("2") == Some(2) by { Text.ParseIntRoundTrip(2); }
    assert Text.ParseInt("3") == Some(3) by { Text.ParseIntRoundTrip(3); }
  }

  /** `EDQuantity` "2" over two documents passes; "3" over two is a mismatch. */
  lemma EdQuantityExamples(d1: Element, d2: Element)
    ensures EdQuantityFindings(map["EDQuantity" := "2"], [d1, d2]) == []
    ensures EdQuantityFindings(map["EDQuantity" := "3"], [d1, d2]) == [QuantityMismatch(3, 2)]
  {
    assert Text.ParseInt("2") == Some(2) by { Text.ParseIntRoundTrip(2); }
    assert Text.ParseInt("3") == Some(3) by { Text.ParseIntRoundTrip(3); }
  }
}

=== FILE: epd_pairing.dfy ===
/** The reconciliation pass between a BIC directory (ED807) and a payment
    packet: directory entries are taken two at a time as (payer, payee),
    the k-th pair is compared with the k-th ED101 document, mismatches are
    collected, and a missing `Accounts` or a packet that runs out of
    documents stops the pass at once with everything collected so far. */
module EpdPairing {
  import opened Wrappers
  import opened XmlTree
  import ErrorList
  import EpdHeaders

  /** The compared fields, in the order the pass compares them. */
  datatype Field =
    | AccDocNo | AccDocDate | Sum
    | PayerName | PayerBic | PayerCorrespAcc
    | PayeeName | PayeeBic | PayeeCorrespAcc

  datatype Finding =
    | AccountsMissing(entry: nat)  // 1-based position of the directory entry without `Accounts`
    | DocumentsExhausted(pair: nat) // 1-based pair for which no ED101 is left
    | Mismatch(pair: nat, entry: nat, field: Field, ed101Value: Option<string>, ed807Value: Option<string>)

  /** How the pass ends: all pairs agree; every pair was compared and some
      disagreed; a hard stop; or an attribute lookup on an absent element
      raised, which discards every finding. */
  datatype Verdict = Pass | Fail(findings: seq<Finding>) | Stop(findings: seq<Finding>) | Crash

  /** The pairs from entry `from` on, two entries at a time. */
  function PairsFrom(entries: seq<Element>, from: nat): (r: seq<(Element, Element)>)
    requires from <= |entries|
    ensures |r| == (|entries| - from) / 2
    ensures forall j :: 0 <= j < |r| ==> r[j] == (entries[from + 2 * j], entries[from + 2 * j + 1])
    decreases |entries| - from
  {
    if |entries| - from < 2 then []
    else
      var rest := PairsFrom(entries, from + 2);
      var all := [(entries[from], entries[from + 1])] + rest;
      assert forall j :: 1 <= j <= |rest| ==> all[j] == rest[j - 1];
      all
  }

  /** The directory entries as (payer, payee) pairs; an odd trailing entry
      has no payee and is dropped. */
  function ChunkPairs(entries: seq<Element>): (r: seq<(Element, Element)>)
    ensures |r| == |entries| / 2
    ensures forall k :: 0 <= k < |r| ==> r[k] == (entries[2 * k], entries[2 * k + 1])
  {
    PairsFrom(entries, 0)
  }

  /** One comparison of an ED101 value with a directory value. */
  datatype Comparison = Comparison(field: Field, ed101Value: Option<string>, ed807Value: Option<string>)

  predicate Differs(c: Comparison) {
    c.ed101Value != c.ed807Value
  }

  predicate PayeeField(f: Field) {
    f.PayeeName? || f.PayeeBic? || f.PayeeCorrespAcc?
  }

  /** The finding a differing comparison of pair `k` (0-based) records; payee
      fields cite the payee's entry, the others the payer's. */
  function MismatchOf(c: Comparison, k: nat): Finding {
    Mismatch(k + 1, if PayeeField(c.field) then 2 * k + 2 else 2 * k + 1, c.field, c.ed101Value, c.ed807Value)
  }

  /** The findings a run of comparisons of pair `k` calls for: one per
      differing comparison, in comparison order. */
  function Differing(cs: seq<Comparison>, k: nat): (r: seq<Finding>)
    ensures forall j :: 0 <= j < |r| ==> r[j].Mismatch? && r[j].pair == k + 1
    decreases |cs|
  {
    if cs == [] then []
    else (if Differs(cs[0]) then [MismatchOf(cs[0], k)] else []) + Differing(cs[1..], k)
  }

  /** A differing comparison's finding is called for exactly when that
      comparison is among the run and differs; nothing else is. */
  lemma {:induction false} DifferingMembership(cs: seq<Comparison>, k: nat, c: Comparison)
    ensures MismatchOf(c, k) in Differing(cs, k) <==> c in cs && Differs(c)
    ensures Differing(cs, k) == [] <==> forall i :: 0 <= i < |cs| ==> !Differs(cs[i])
    ensures |Differing(cs, k)| <= |cs|
    decreases |cs|
  {
    if cs != [] {
      DifferingMembership(cs[1..], k, c);
      assert cs == [cs[0]] + cs[1..];
      assert forall i :: 1 <= i < |cs| ==> cs[i] == cs[1..][i - 1];
    }
  }

  /** A run of non-stopping `check_error` calls: each differing comparison
      appends its finding, in order, and nothing else is appended. */
  function Record(cs: seq<Comparison>, k: nat, errors: seq<Finding>): (r: seq<Finding>)
    ensures r == errors + Differing(cs, k)
    ensures |errors| <= |r| <= |errors| + |cs|
    ensures r == errors <==> forall i :: 0 <= i < |cs| ==> !Differs(cs[i])
    decreases |cs|
  {
    if cs == [] then errors
    else
      var o := ErrorList.CheckError(cs[0].ed101Value, cs[0].ed807Value, errors, MismatchOf(cs[0], k), false);
      var r := Record(cs[1..], k, o.errors);
      assert o.errors == errors + (if Differs(cs[0]) then [MismatchOf(cs[0], k)] else []);
      DifferingMembership(cs, k, cs[0]);
      r
  }

  /** Every element the comparisons dereference is present: the document's
      `AccDoc`, `Payer`, `Payee` and their `Bank`s, and both entries'
      `ParticipantInfo`. */
  predicate Dereferenceable(doc: Element, payerEntry: Element, payeeEntry: Element) {
    && FindChild(doc, "AccDoc").Some?
    && FindChild(doc, "Payer").Some? && FindChild(FindChild(doc, "Payer").value, "Bank").Some?
    && FindChild(doc, "Payee").Some? && FindChild(FindChild(doc, "Payee").value, "Bank").Some?
    && FindChild(payerEntry, "ParticipantInfo").Some? && FindChild(payeeEntry, "ParticipantInfo").Some?
  }

  /** `get(name)` on a lookup result that may be absent. */
  function AttrOf(e: Option<Element>, name: string): Option<string> {
    match e
    case None => None
    case Some(x) => Attr(x, name)
  }

  /** `findtext(tag)` on a lookup result that may be absent. */
  function TextOf(e: Option<Element>, tag: string): Option<string> {
    match e
    case None => None
    case Some(x) => FindText(x, tag)
  }

  /** The comparison of `field` for the document `doc` and the directory
      pair `pair`, read straight from the elements. The pass only compares
      when every dereferenced element is present (`Dereferenceable`), so
      the absent cases of `AttrOf` and `TextOf` never decide a reading it
      makes; a directory entry's `Accounts` is present by then too. */
  function Reading(doc: Element, pair: (Element, Element), field: Field): (c: Comparison)
    ensures c.field == field
  {
    var payerInfo := FindChild(pair.0, "ParticipantInfo");
    var payeeInfo := FindChild(pair.1, "ParticipantInfo");
    var payerBank := EpdHeaders.BankOf(doc, EpdHeaders.PayerParty);
    var payeeBank := EpdHeaders.BankOf(doc, EpdHeaders.PayeeParty);
    match field
    case AccDocNo => Comparison(field, AttrOf(FindChild(doc, "AccDoc"), "AccDocNo"), AttrOf(payerInfo, "PtType"))
    case AccDocDate => Comparison(field, AttrOf(FindChild(doc, "AccDoc"), "AccDocDate"), AttrOf(payerInfo, "DateIn"))
    case Sum => Comparison(field, Attr(doc, "Sum"), AttrOf(payerInfo, "Rgn"))
    case PayerName => Comparison(field, TextOf(FindChild(doc, "Payer"), "Name"), AttrOf(payerInfo, "NameP"))
    case PayerBic => Comparison(field, AttrOf(payerBank, "BIC"), Attr(pair.0, "BIC"))
    case PayerCorrespAcc =>
      Comparison(field, AttrOf(payerBank, "CorrespAcc"), AttrOf(FindChild(pair.0, "Accounts"), "Account"))
    case PayeeName => Comparison(field, TextOf(FindChild(doc, "Payee"), "Name"), AttrOf(payeeInfo, "NameP"))
    case PayeeBic => Comparison(field, AttrOf(payeeBank, "BIC"), Attr(pair.1, "BIC"))
    case PayeeCorrespAcc =>
      Comparison(field, AttrOf(payeeBank, "CorrespAcc"), AttrOf(FindChild(pair.1, "Accounts"), "Account"))
  }

  /** The nine fields, in the order the pass compares them. */
  const FIELDS: seq<Field> :=
    [AccDocNo, AccDocDate, Sum, PayerName, PayerBic, PayerCorrespAcc, PayeeName, PayeeBic, PayeeCorrespAcc]

  /** The readings of the fields `fs`, in order. */
  function ReadAll(doc: Element, pair: (Element, Element), fs: seq<Field>): (r: seq<Comparison>)
    ensures |r| == |fs|
    ensures forall i :: 0 <= i < |fs| ==> r[i] == Reading(doc, pair, fs[i])
    ensures forall i :: 0 <= i < |fs| ==> r[i].field == fs[i]
    decreases |fs|
  {
    if fs == [] then []
    else
      var rest := ReadAll(doc, pair, fs[1..]);
      var all := [Reading(doc, pair, fs[0])] + rest;
      assert forall i :: 1 <= i < |fs| ==> all[i] == rest[i - 1] && fs[i] == fs[1..][i - 1];
      all
  }

  /** Where a field stands in `FIELDS`. */
  function FieldIndex(f: Field): (i: nat)
    ensures i < |FIELDS| && FIELDS[i] == f
  {
    match f
    case AccDocNo => 0 case AccDocDate => 1 case Sum => 2
    case PayerName => 3 case PayerBic => 4 case PayerCorrespAcc => 5
    case PayeeName => 6 case PayeeBic => 7 case PayeeCorrespAcc => 8
  }

  /** The nine readings of a pair, in the order the pass compares them:
      every field is read, and each entry is its own field's reading. */
  function Readings(doc: Element, pair: (Element, Element)): (r: seq<Comparison>)
    ensures |r| == 9
    ensures forall i :: 0 <= i < |r| ==> r[i].field == FIELDS[i]
    ensures forall f: Field :: Reading(doc, pair, f) in r
    ensures forall i :: 0 <= i < |r| ==> r[i] == Reading(doc, pair, r[i].field)
  {
    ReadAllFields(doc, pair);
    ReadAll(doc, pair, FIELDS)
  }

  /** Reading all of `FIELDS` reads every field, each entry its own. */
  lemma ReadAllFields(doc: Element, pair: (Element, Element))
    ensures var r := ReadAll(doc, pair, FIELDS);
            && (forall f: Field :: Reading(doc, pair, f) in r)
            && (forall i :: 0 <= i < |r| ==> r[i] == Reading(doc, pair, r[i].field))
  {
    var r := ReadAll(doc, pair, FIELDS);
    forall f: Field ensures Reading(doc, pair, f) in r {
      assert r[FieldIndex(f)] == Reading(doc, pair, f);
    }
    forall i | 0 <= i < |r| ensures r[i] == Reading(doc, pair, r[i].field) {
      assert r[i] == Reading(doc, pair, FIELDS[i]);
    }
  }

  /** What one iteration of the pass does. */
  datatype Step = Proceed(mismatches: seq<Finding>) | Halt(finding: Finding) | Raise

  /** Iteration `k` (0-based) of the pass, on the directory pair `pair`. */
  function PairStep(docs: seq<Element>, pair: (Element, Element), k: nat): (s: Step)
    ensures s.Halt? <==>
              || FindChild(pair.0, "Accounts").None?
              || FindChild(pair.1, "Accounts").None?
              || k >= |docs|
    ensures s == Halt(AccountsMissing(2 * k + 1)) <==> FindChild(pair.0, "Accounts").None?
    ensures s == Halt(AccountsMissing(2 * k + 2)) <==>
              FindChild(pair.0, "Accounts").Some? && FindChild(pair.1, "Accounts").None?
    ensures s == Halt(DocumentsExhausted(k + 1)) <==>
              FindChild(pair.0, "Accounts").Some? && FindChild(pair.1, "Accounts").Some? && k >= |docs|
    ensures s.Raise? <==> !s.Halt? && !Dereferenceable(docs[k], pair.0, pair.1)
    ensures s.Proceed? <==>
              && FindChild(pair.0, "Accounts").Some? && FindChild(pair.1, "Accounts").Some?
              && k < |docs| && Dereferenceable(docs[k], pair.0, pair.1)
    ensures s.Proceed? ==> k < |docs| && s.mismatches == Differing(Readings(docs[k], pair), k)
    ensures s.Proceed? ==> forall j :: 0 <= j < |s.mismatches| ==>
              s.mismatches[j].Mismatch? && s.mismatches[j].pair == k + 1
  {
    if FindChild(pair.0, "Accounts").None? then Halt(AccountsMissing(2 * k + 1))
    else if FindChild(pair.1, "Accounts").None? then Halt(AccountsMissing(2 * k + 2))
    else if k >= |docs| then Halt(DocumentsExhausted(k + 1))
    else if !Dereferenceable(docs[k], pair.0, pair.1) then Raise
    else Proceed(Record(Readings(docs[k], pair), k, []))
  }

  /** For each of the nine fields, a pair that proceeds records the field's
      mismatch, against the payer's entry (`2k+1`) for the payer-side fields
      and the payee's entry (`2k+2`) for the payee-side ones, with both
      values, exactly when the document's value and the directory's value
      differ. */
  lemma FieldMismatchReported(docs: seq<Element>, pair: (Element, Element), k: nat, field: Field)
    ensures PairStep(docs, pair, k).Proceed? ==>
              && k < |docs|
              && var c := Reading(docs[k], pair, field);
                 Mismatch(k + 1, if PayeeField(field) then 2 * k + 2 else 2 * k + 1, field, c.ed101Value, c.ed807Value)
                   in PairStep(docs, pair, k).mismatches
                 <==> c.ed101Value != c.ed807Value
  {
    if PairStep(docs, pair, k).Proceed? {
      var c := Reading(docs[k], pair, field);
      DifferingMembership(Readings(docs[k], pair), k, c);
      assert MismatchOf(c, k) == Mismatch(k + 1, if PayeeField(field) then 2 * k + 2 else 2 * k + 1, field, c.ed101Value, c.ed807Value);
    }
  }

  /** A pair that proceeds records nothing exactly when the document and
      the directory agree on all nine fields. */
  lemma ProceedCleanIffAllAgree(docs: seq<Element>, pair: (Element, Element), k: nat)
    ensures PairStep(docs, pair, k).Proceed? ==>
              && k < |docs|
              && (PairStep(docs, pair, k).mismatches == [] <==> forall f: Field :: !Differs(Reading(docs[k], pair, f)))
  {
    if PairStep(docs, pair, k).Proceed? {
      var cs := Readings(docs[k], pair);
      assert PairStep(docs, pair, k).mismatches == Differing(cs, k);
      DifferingMembership(cs, k, cs[0]);
      AllReadingsAgree(docs[k], pair);
    }
  }

  /** The nine readings agree exactly when every field's reading agrees. */
  lemma AllReadingsAgree(doc: Element, pair: (Element, Element))
    ensures (forall i :: 0 <= i < |Readings(doc, pair)| ==> !Differs(Readings(doc, pair)[i]))
            <==> forall f: Field :: !Differs(Reading(doc, pair, f))
  {
    var cs := Readings(doc, pair);
    if forall i :: 0 <= i < |cs| ==> !Differs(cs[i]) {
      forall f: Field ensures !Differs(Reading(doc, pair, f)) {
        assert Reading(doc, pair, f) in cs;
      }
    }
    if forall f: Field :: !Differs(Reading(doc, pair, f)) {
      forall i | 0 <= i < |cs| ensures !Differs(cs[i]) {
        assert cs[i] == Reading(doc, pair, cs[i].field);
      }
    }
  }

  /** The loop from iteration `k` on, with the findings collected so far;
      `step` is what one iteration does. */
  function Walk<P>(pairs: seq<P>, step: (nat, P) -> Step, k: nat, errors: seq<Finding>): (v: Verdict)
    requires k <= |pairs|
    ensures v.Fail? || v.Stop? ==> |errors| <= |v.findings| && v.findings[..|errors|] == errors
    ensures v.Pass? ==> errors == []
    decreases |pairs| - k
  {
    if k == |pairs| then
      if errors == [] then Pass else Fail(errors)
    else
      match step(k, pairs[k])
      case Raise => Crash
      case Halt(f) =>
        var o := ErrorList.CheckError(true, false, errors, f, true);
        Stop(o.errors)
      case Proceed(ms) =>
        var v := Walk(pairs, step, k + 1, errors + ms);
        assert v.Fail? || v.Stop? ==> v.findings[..|errors|] == (errors + ms)[..|errors|];
        v
  }

  /** One iteration of the pass over the packet's documents. */
  function StepOver(docs: seq<Element>): (nat, (Element, Element)) -> Step {
    (k: nat, pair: (Element, Element)) => PairStep(docs, pair, k)
  }

  /** `test_ED101_payer_and_payee_filled_from_BICDirectoryEntry`, on the
      packet's ED101 documents and the directory's entries. */
  function Reconcile(docs: seq<Element>, entries: seq<Element>): (v: Verdict)
    ensures |entries| < 2 ==> v == Pass
  {
    Walk(ChunkPairs(entries), StepOver(docs), 0, [])
  }

  // ---------------------------------------------------------------------
  // A reference reading of the pass: the first iteration that does not
  // proceed decides, otherwise the concatenated mismatches do.

  /** Iterations `0 .. n-1` all proceed. */
  ghost predicate ProceedsBefore<P>(pairs: seq<P>, step: (nat, P) -> Step, n: nat)
    requires n <= |pairs|
  {
    forall k :: 0 <= k < n ==> step(k, pairs[k]).Proceed?
  }

  /** The mismatches iterations `0 .. n-1` record, in order. */
  function Collected<P>(pairs: seq<P>, step: (nat, P) -> Step, n: nat): seq<Finding>
    requires n <= |pairs|
  {
    if n == 0 then []
    else
      Collected(pairs, step, n - 1)
      + match step(n - 1, pairs[n - 1]) case Proceed(ms) => ms case _ => []
  }

  lemma {:induction false} WalkReaches<P>(pairs: seq<P>, step: (nat, P) -> Step, n: nat)
    requires n <= |pairs|
    requires ProceedsBefore(pairs, step, n)
    ensures Walk(pairs, step, 0, []) == Walk(pairs, step, n, Collected(pairs, step, n))
  {
    if n > 0 {
      WalkReaches(pairs, step, n - 1);
    }
  }

  /** The verdict of the loop is decided by the first iteration that does
      not proceed (a stop carrying everything collected before it plus its
      own finding, or a crash), and when every iteration proceeds, by
      whether any mismatch was collected. */
  lemma WalkVerdict<P>(pairs: seq<P>, step: (nat, P) -> Step)
    ensures ProceedsBefore(pairs, step, |pairs|) ==>
              Walk(pairs, step, 0, []) ==
                (if Collected(pairs, step, |pairs|) == [] then Pass else Fail(Collected(pairs, step, |pairs|)))
    ensures forall n: nat :: n < |pairs| && ProceedsBefore(pairs, step, n) && step(n, pairs[n]).Halt? ==>
              Walk(pairs, step, 0, []) == Stop(Collected(pairs, step, n) + [step(n, pairs[n]).finding])
    ensures forall n: nat :: n < |pairs| && ProceedsBefore(pairs, step, n) && step(n, pairs[n]).Raise? ==>
              Walk(pairs, step, 0, []) == Crash
  {
    if ProceedsBefore(pairs, step, |pairs|) {
      WalkReaches(pairs, step, |pairs|);
    }
    forall n: nat | n < |pairs| && ProceedsBefore(pairs, step, n)
      ensures Walk(pairs, step, 0, []) == Walk(pairs, step, n, Collected(pairs, step, n))
    {
      WalkReaches(pairs, step, n);
    }
  }

  /** The pass on a packet and a directory, read through `WalkVerdict`. */
  lemma ReconcileVerdict(docs: seq<Element>, entries: seq<Element>)
    ensures var pairs := ChunkPairs(entries);
            ProceedsBefore(pairs, StepOver(docs), |pairs|) ==>
              Reconcile(docs, entries) ==
                (if Collected(pairs, StepOver(docs), |pairs|) == [] then Pass
                 else Fail(Collected(pairs, StepOver(docs), |pairs|)))
    ensures var pairs := ChunkPairs(entries);
            forall n: nat :: n < |pairs| && ProceedsBefore(pairs, StepOver(docs), n)
                             && PairStep(docs, pairs[n], n).Halt? ==>
              Reconcile(docs, entries) ==
                Stop(Collected(pairs, StepOver(docs), n) + [PairStep(docs, pairs[n], n).finding])
    ensures var pairs := ChunkPairs(entries);
            forall n: nat :: n < |pairs| && ProceedsBefore(pairs, StepOver(docs), n)
                             && PairStep(docs, pairs[n], n).Raise? ==>
              Reconcile(docs, entries) == Crash
  {
    WalkVerdict(ChunkPairs(entries), StepOver(docs));
  }

  /** When iteration `k` only ever records mismatches of pair `k + 1`,
      everything collected over the first `n` iterations is a mismatch of
      one of the first `n` pairs. */
  lemma {:induction false} CollectedPairsBounded<P>(pairs: seq<P>, step: (nat, P) -> Step, n: nat)
    requires n <= |pairs|
    requires forall k :: 0 <= k < n && step(k, pairs[k]).Proceed? ==>
               forall j :: 0 <= j < |step(k, pairs[k]).mismatches| ==>
                 step(k, pairs[k]).mismatches[j].Mismatch? && step(k, pairs[k]).mismatches[j].pair == k + 1
    ensures forall j :: 0 <= j < |Collected(pairs, step, n)| ==>
              Collected(pairs, step, n)[j].Mismatch? && 1 <= Collected(pairs, step, n)[j].pair <= n
  {
    if n > 0 {
      CollectedPairsBounded(pairs, step, n - 1);
      var before := Collected(pairs, step, n - 1);
      var last := match step(n - 1, pairs[n - 1]) case Proceed(ms) => ms case _ => [];
      assert Collected(pairs, step, n) == before + last;
      assert forall j :: 0 <= j < |last| ==> last[j].Mismatch? && last[j].pair == n;
    }
  }

  /** Every collected finding is a mismatch of one of the first `n` pairs. */
  lemma CollectedAreMismatches(docs: seq<Element>, pairs: seq<(Element, Element)>, n: nat)
    requires n <= |pairs|
    ensures forall j :: 0 <= j < |Collected(pairs, StepOver(docs), n)| ==>
              Collected(pairs, StepOver(docs), n)[j].Mismatch?
              && 1 <= Collected(pairs, StepOver(docs), n)[j].pair <= n
  {
    forall k | 0 <= k < n
      ensures StepOver(docs)(k, pairs[k]) == PairStep(docs, pairs[k], k)
    {
    }
    CollectedPairsBounded(pairs, StepOver(docs), n);
  }

  /** A packet with fewer ED101 documents than directory pairs never passes
      and never merely fails: the pass stops or raises before the end. */
  lemma ShortPacketNeverCompletes(docs: seq<Element>, entries: seq<Element>)
    requires |docs| < |entries| / 2
    ensures Reconcile(docs, entries).Stop? || Reconcile(docs, entries).Crash?
  {
    WalkShort(docs, ChunkPairs(entries), 0, []);
  }

  lemma {:induction false} WalkShort(docs: seq<Element>, pairs: seq<(Element, Element)>, k: nat, errors: seq<Finding>)
    requires k <= |docs| < |pairs|
    ensures Walk(pairs, StepOver(docs), k, errors).Stop? || Walk(pairs, StepOver(docs), k, errors).Crash?
    decreases |docs| - k
  {
    match PairStep(docs, pairs[k], k)
    case Raise =>
    case Halt(_) =>
    case Proceed(ms) =>
      WalkShort(docs, pairs, k + 1, errors + ms);
  }

  /** An odd trailing directory entry has no payee and does not change the verdict. */
  lemma TrailingEntryIgnored(docs: seq<Element>, entries: seq<Element>, extra: Element)
    requires |entries| % 2 == 0
    ensures Reconcile(docs, entries + [extra]) == Reconcile(docs, entries)
  {
    var a := ChunkPairs(entries + [extra]);
    var b := ChunkPairs(entries);
    assert |a| == |b|;
    assert forall k :: 0 <= k < |a| ==> a[k] == b[k];
    assert a == b;
  }

  /** Two step functions that agree on every iteration give the same loop. */
  lemma {:induction false} WalkRespectsAgreement<P>(
    pairs: seq<P>, step1: (nat, P) -> Step, step2: (nat, P) -> Step, k: nat, errors: seq<Finding>)
    requires k <= |pairs|
    requires forall j :: k <= j < |pairs| ==> step1(j, pairs[j]) == step2(j, pairs[j])
    ensures Walk(pairs, step1, k, errors) == Walk(pairs, step2, k, errors)
    decreases |pairs| - k
  {
    if k < |pairs| {
      match step1(k, pairs[k])
      case Raise =>
      case Halt(_) =>
      case Proceed(ms) =>
        WalkRespectsAgreement(pairs, step1, step2, k + 1, errors + ms);
    }
  }

  /** ED101 documents beyond the last directory pair are never compared. */
  lemma ExtraDocumentsIgnored(docs: seq<Element>, more: seq<Element>, entries: seq<Element>)
    requires |entries| / 2 <= |docs|
    ensures Reconcile(docs + more, entries) == Reconcile(docs, entries)
  {
    var pairs := ChunkPairs(entries);
    forall j | 0 <= j < |pairs|
      ensures StepOver(docs + more)(j, pairs[j]) == StepOver(docs)(j, pairs[j])
    {
      assert (docs + more)[j] == docs[j];
    }
    WalkRespectsAgreement(pairs, StepOver(docs + more), StepOver(docs), 0, []);
  }
}

=== FILE: error_list.dfy ===
/** The accumulate-then-fail helper: `check_error` records a message when an
    expected value differs from the actual one and may stop at once;
    `assert_error_list` fails with every recorded message joined by newlines. */
module ErrorList {
  import opened Wrappers
  import Text

  /** The state after one `check_error` call: carry on with the (possibly
      longer) list, or stop failing with everything collected so far. */
  datatype CheckOutcome<M> = Continue(errors: seq<M>) | Stop(errors: seq<M>)

  /** `check_error(expected, actual, errors, msg, dont_continue)`. */
  function CheckError<T(==), M>(expected: T, actual: T, errors: seq<M>, msg: M, dontContinue: bool)
    : (r: CheckOutcome<M>)
    ensures expected == actual ==> r == Continue(errors)
    ensures expected != actual ==> r.errors == errors + [msg]
    ensures r.Stop? <==> expected != actual && dontContinue
    ensures r.errors[..|errors|] == errors
  {
    if expected != actual then
      var grown := errors + [msg];
      if dontContinue then Stop(grown) else Continue(grown)
    else Continue(errors)
  }

  /** `assert_error_list(errors)`: success on an empty list, otherwise the
      failure text is the messages joined by newlines. */
  function AssertErrorList(errors: seq<string>): (r: Result<(), string>)
    ensures r.Success? <==> errors == []
    ensures r.Failure? ==> forall k :: 0 <= k < |errors| ==> |errors[k]| <= |r.error|
    ensures r.Failure? ==> forall k :: 0 <= k < |errors| ==> Contains(r.error, errors[k])
  {
    if |errors| == 0 then Success(())
    else
      JoinedHoldsEveryMessage(errors);
      Failure(Text.JoinLines(errors))
  }

  /** `m` occurs in `text` as a contiguous piece. */
  predicate Contains(text: string, m: string) {
    exists p :: 0 <= p <= |text| && m <= text[p..]
  }

  lemma ContainsFront(a: string, b: string)
    ensures Contains(a + b, a)
  {
    assert a <= (a + b)[0..];
  }

  lemma ContainsBack(a: string, b: string, m: string)
    requires Contains(b, m)
    ensures Contains(a + b, m)
  {
    var p :| 0 <= p <= |b| && m <= b[p..];
    assert (a + b)[|a| + p..] == b[p..];
  }

  lemma {:induction false} JoinedHoldsEveryMessage(ms: seq<string>)
    ensures forall k :: 0 <= k < |ms| ==> Contains(Text.JoinLines(ms), ms[k])
    ensures forall k :: 0 <= k < |ms| ==> |ms[k]| <= |Text.JoinLines(ms)|
  {
    if |ms| == 1 {
      ContainsFront(ms[0], []);
      assert ms[0] + [] == ms[0];
    } else if |ms| > 1 {
      var rest := Text.JoinLines(ms[1..]);
      JoinedHoldsEveryMessage(ms[1..]);
      assert Text.JoinLines(ms) == ms[0] + ("\n" + rest);
      ContainsFront(ms[0], "\n" + rest);
      forall k | 1 <= k < |ms|
        ensures Contains(Text.JoinLines(ms), ms[k])
      {
        assert ms[k] == ms[1..][k - 1];
        ContainsBack("\n", rest, ms[k]);
        ContainsBack(ms[0], "\n" + rest, ms[k]);
      }
    }
  }

  /** The failure text lists the collected messages in order: splitting it
      at newlines gives them back, provided none holds a newline itself. */
  lemma FailureTextListsMessages(errors: seq<string>)
    requires errors != []
    requires forall k :: 0 <= k < |errors| ==> Text.NewlineFree(errors[k])
    ensures AssertErrorList(errors).Failure?
    ensures Text.SplitLines(AssertErrorList(errors).error) == errors
  {
    Text.SplitJoinRoundTrip(errors);
  }
}

=== FILE: node_checks.dfy ===
/** The structural presence scanners of the generic XML accessor and the
    balance-document locators that specialise them. Each scanner is a
    collect-all scan (see `Scans.Flags`): `(True, node count)` when every
    node passes, otherwise `(False, 1-based positions of the failing nodes)`. */
module NodeChecks {
  import opened Wrappers
  import opened Scans
  import opened XmlTree

  /** The node has no attribute `name` (`node.get(name) is None`). */
  function LacksAttr(name: string): Element -> bool {
    (n: Element) => name !in n.attrs
  }

  /** `all_given_nodes_contain_attrib`. */
  function AllContainAttrib(nodes: seq<Element>, name: string): (r: ScanResult)
    ensures Flags(r, nodes, LacksAttr(name))
  {
    Scan(nodes, LacksAttr(name))
  }

  /** How many entries of `options` name an attribute of `n` (an option
      listed twice counts twice). */
  function CountPresent(n: Element, options: seq<string>): nat
    decreases |options|
  {
    if options == [] then 0
    else (if options[0] in n.attrs then 1 else 0) + CountPresent(n, options[1..])
  }

  /** The inner loop of `all_given_nodes_contain_one_of_attrib` as written:
      counting from `found`, it leaves as soon as the count exceeds one. */
  function CountPresentWithBreak(n: Element, options: seq<string>, found: nat): nat
    decreases |options|
  {
    if options == [] then found
    else if options[0] in n.attrs then
      if found + 1 > 1 then found + 1 else CountPresentWithBreak(n, options[1..], found + 1)
    else CountPresentWithBreak(n, options[1..], found)
  }

  /** The early `break` only caps the count at two, so it never changes
      whether the count is exactly one. */
  lemma {:induction false} BreakCapsCount(n: Element, options: seq<string>, found: nat)
    requires found <= 1
    ensures CountPresentWithBreak(n, options, found) ==
            if found + CountPresent(n, options) <= 1 then found + CountPresent(n, options) else 2
    decreases |options|
  {
    if options != [] && !(options[0] in n.attrs && found + 1 > 1) {
      BreakCapsCount(n, options[1..], if options[0] in n.attrs then found + 1 else found);
    }
  }

  /** The node carries a number of the listed attributes other than one. */
  function NotExactlyOneOf(options: seq<string>): Element -> bool {
    (n: Element) => CountPresent(n, options) != 1
  }

  /** The verdict the source's loop reaches for one node, break included. */
  function NotExactlyOneWithBreak(options: seq<string>): Element -> bool {
    (n: Element) => CountPresentWithBreak(n, options, 0) != 1
  }

  /** `all_given_nodes_contain_one_of_attrib(nodes, *options)`: flags the
      nodes that carry none, or more than one, of the options. */
  function AllContainOneOfAttrib(nodes: seq<Element>, options: seq<string>): (r: ScanResult)
    ensures Flags(r, nodes, NotExactlyOneOf(options))
  {
    var r := Scan(nodes, NotExactlyOneWithBreak(options));
    forall i | 0 <= i < |nodes|
      ensures NotExactlyOneWithBreak(options)(nodes[i]) == NotExactlyOneOf(options)(nodes[i])
    {
      BreakCapsCount(nodes[i], options, 0);
    }
    FlagsRespectAgreement(r, nodes, NotExactlyOneWithBreak(options), NotExactlyOneOf(options));
    r
  }

  /** Some child of `n` lacks a `}` in its tag, which makes stripping the
      namespace raise. */
  ghost predicate HasUnqualifiedChild(n: Element) {
    exists i :: 0 <= i < |n.children| && '}' !in n.children[i].tag
  }

  /** No child of the node has the local name `name`. */
  function LacksChild(name: string): Element -> bool {
    (n: Element) =>
      forall i :: 0 <= i < |n.children| ==> LocalName(n.children[i].tag) != Some(name)
  }

  /** The source's test for one node: `name not in unique children names`. */
  function NotAmongChildNames(name: string): Element -> bool {
    (n: Element) => UniqueChildNames(n).None? || name !in UniqueChildNames(n).value
  }

  /** `all_given_nodes_contain_child_node`: absent when stripping some
      node's child tags raises; otherwise flags the nodes none of whose
      children has the local name `name`. */
  function AllContainChildNode(nodes: seq<Element>, name: string): (r: Option<ScanResult>)
    ensures r.None? <==> exists i :: 0 <= i < |nodes| && HasUnqualifiedChild(nodes[i])
    ensures r.Some? ==> Flags(r.value, nodes, LacksChild(name))
  {
    if exists i :: 0 <= i < |nodes| && UniqueChildNames(nodes[i]).None? then None
    else
      var r := Scan(nodes, NotAmongChildNames(name));
      FlagsRespectAgreement(r, nodes, NotAmongChildNames(name), LacksChild(name));
      Some(r)
  }

  /** A balance export: its root element and the namespace the `ns`
      prefix of the locators is bound to. */
  datatype BalanceDocument = BalanceDocument(root: Element, ns: Option<string>)

  /** `node_balance_locator`, `ns:Ballance` (the document's own spelling). */
  function BalanceLocator(ns: Option<string>): seq<string> {
    [Qualify(ns, "Ballance")]
  }

  /** `node_operation_locator`, `ns:Ballance/ns:Oper`. */
  function OperationLocator(ns: Option<string>): seq<string> {
    BalanceLocator(ns) + [Qualify(ns, "Oper")]
  }

  /** `node_status_locator` and `node_corrAcc_locator`. */
  function StatusTag(ns: Option<string>): string {
    Qualify(ns, "Status")
  }

  function CorrAccTag(ns: Option<string>): string {
    Qualify(ns, "corAcc")
  }

  /** The operation nodes, in document order. */
  function OperationNodes(doc: BalanceDocument): (r: seq<Element>)
    ensures forall k :: 0 <= k < |r| ==> r[k].tag == Qualify(doc.ns, "Oper")
  {
    FindAll(doc.root, OperationLocator(doc.ns))
  }

  /** `check_all_operation_nodes_contain_date`. */
  function CheckOperationsHaveDate(doc: BalanceDocument): (r: ScanResult)
    ensures Flags(r, OperationNodes(doc), LacksAttr("date"))
  {
    AllContainAttrib(OperationNodes(doc), "date")
  }

  /** `check_all_operation_nodes_contain_corr_acc`: only the attribute form. */
  function CheckOperationsHaveCorrAcc(doc: BalanceDocument): (r: ScanResult)
    ensures Flags(r, OperationNodes(doc), LacksAttr("corAcc"))
  {
    AllContainAttrib(OperationNodes(doc), "corAcc")
  }

  /** `check_all_operation_nodes_contain_dbt_or_cdt`. */
  function CheckOperationsHaveDbtOrCdt(doc: BalanceDocument): (r: ScanResult)
    ensures Flags(r, OperationNodes(doc), NotExactlyOneOf(["dbt", "cdt"]))
  {
    AllContainOneOfAttrib(OperationNodes(doc), ["dbt", "cdt"])
  }

  /** The node carries both `dbt` and `cdt`, or neither. */
  function BothOrNeitherAmount(n: Element): bool {
    ("dbt" in n.attrs) == ("cdt" in n.attrs)
  }

  /** The debit/credit scan flags exactly the operation nodes that carry
      both amount attributes or neither. */
  lemma DbtOrCdtFlagsBothOrNeither(doc: BalanceDocument)
    ensures Flags(CheckOperationsHaveDbtOrCdt(doc), OperationNodes(doc), BothOrNeitherAmount)
  {
    var nodes := OperationNodes(doc);
    forall i | 0 <= i < |nodes|
      ensures NotExactlyOneOf(["dbt", "cdt"])(nodes[i]) == BothOrNeitherAmount(nodes[i])
    {
      assert ["dbt", "cdt"][1..] == ["cdt"];
      assert ["cdt"][1..] == [];
    }
    FlagsRespectAgreement(CheckOperationsHaveDbtOrCdt(doc), nodes,
                          NotExactlyOneOf(["dbt", "cdt"]), BothOrNeitherAmount);
  }

  /** `check_all_operation_nodes_contain_status_node`. */
  function CheckOperationsHaveStatus(doc: BalanceDocument): (r: Option<ScanResult>)
    ensures r.None? <==> exists i :: 0 <= i < |OperationNodes(doc)| && HasUnqualifiedChild(OperationNodes(doc)[i])
    ensures r.Some? ==> Flags(r.value, OperationNodes(doc), LacksChild("Status"))
  {
    AllContainChildNode(OperationNodes(doc), "Status")
  }
}

=== FILE: operation.dfy ===
/** One operation of a balance export, built from the raw strings of an
    `Oper` node: the processed flag from the status text, the calendar date
    from `dd-mm-yyyy` text, and optional debit/credit amounts. */
module Operations {
  import opened Wrappers
  import Text

  /** The status text of a completed operation ("Completed"). */
  const COMPLETED_STATUS: string := "Выполнена"

  /** A calendar date as a (day, month, year) triple. */
  datatype Date = Date(day: nat, month: nat, year: nat)

  predicate IsLeapYear(year: nat) {
    year % 4 == 0 && (year % 100 != 0 || year % 400 == 0)
  }

  function DaysInMonth(month: nat, year: nat): nat
    requires 1 <= month <= 12
  {
    if month == 2 then (if IsLeapYear(year) then 29 else 28)
    else if month == 4 || month == 6 || month == 9 || month == 11 then 30
    else 31
  }

  /** A date the Gregorian calendar (years 1 to 9999) has. */
  predicate ValidDate(d: Date) {
    && 1 <= d.year <= 9999
    && 1 <= d.month <= 12
    && 1 <= d.day <= DaysInMonth(d.month, d.year)
  }

  /** `datetime.strptime(s, "%d-%m-%Y")` on two-digit day, two-digit month
      and four-digit year; text of any other shape, or naming a day the
      calendar does not have, raises (here: `None`). */
  function ParseDate(s: string): (r: Option<Date>)
    ensures r.Some? ==> ValidDate(r.value)
    ensures r.Some? ==> |s| == 10 && s[2] == '-' && s[5] == '-'
  {
    if |s| == 10 && s[2] == '-' && s[5] == '-'
       && Text.AllDigits(s[..2]) && Text.AllDigits(s[3..5]) && Text.AllDigits(s[6..])
    then
      var d := Date(Text.DigitsValue(s[..2]), Text.DigitsValue(s[3..5]), Text.DigitsValue(s[6..]));
      if ValidDate(d) then Some(d) else None
    else None
  }

  function Pow10(k: nat): (p: nat)
    ensures p >= 1
  {
    if k == 0 then 1 else 10 * Pow10(k - 1)
  }

  /** The last `width` decimal digits of `n`, zero-padded. */
  function Pad(n: nat, width: nat): (s: string)
    ensures |s| == width && Text.AllDigits(s)
  {
    if width == 0 then [] else Pad(n / 10, width - 1) + [Text.DigitChar(n % 10)]
  }

  /** `date.strftime("%d-%m-%Y")`: ten characters, a two-digit day, a
      two-digit month and a four-digit year separated by dashes. */
  function FormatDate(d: Date): (s: string)
    ensures |s| == 10 && s[2] == '-' && s[5] == '-'
    ensures Text.AllDigits(s[..2]) && Text.AllDigits(s[3..5]) && Text.AllDigits(s[6..])
  {
    Pad(d.day, 2) + "-" + Pad(d.month, 2) + "-" + Pad(d.year, 4)
  }

  lemma {:induction false} PadValue(n: nat, width: nat)
    requires n < Pow10(width)
    ensures Text.DigitsValue(Pad(n, width)) == n
  {
    if width > 0 {
      var s := Pad(n, width);
      assert s[..|s| - 1] == Pad(n / 10, width - 1);
      assert n / 10 < Pow10(width - 1);
      PadValue(n / 10, width - 1);
    }
  }

  lemma {:induction false} PadOfValue(s: string)
    requires Text.AllDigits(s)
    ensures Pad(Text.DigitsValue(s), |s|) == s
    decreases |s|
  {
    if s != [] {
      var init := s[..|s| - 1];
      var c := s[|s| - 1];
      var v := Text.DigitsValue(s);
      assert v == Text.DigitsValue(init) * 10 + Text.DigitValue(c);
      assert v / 10 == Text.DigitsValue(init);
      assert v % 10 == Text.DigitValue(c);
      PadOfValue(init);
      assert Text.DigitChar(Text.DigitValue(c)) == c;
      assert init + [c] == s;
    }
  }

  /** Formatting a calendar date and parsing the text back gives the same
      date: the two are inverse on valid dates. */
  lemma FormatThenParse(d: Date)
    requires ValidDate(d)
    ensures ParseDate(FormatDate(d)) == Some(d)
  {
    var s := FormatDate(d);
    assert Pow10(2) == 100 && Pow10(4) == 10000;
    assert s[..2] == Pad(d.day, 2);
    assert s[3..5] == Pad(d.month, 2);
    assert s[6..] == Pad(d.year, 4);
    PadValue(d.day, 2);
    PadValue(d.month, 2);
    PadValue(d.year, 4);
  }

  /** Parsing accepted text and formatting the date gives back the text. */
  lemma ParseThenFormat(s: string)
    requires ParseDate(s).Some?
    ensures FormatDate(ParseDate(s).value) == s
  {
    var d := ParseDate(s).value;
    PadOfValue(s[..2]);
    PadOfValue(s[3..5]);
    PadOfValue(s[6..]);
    assert s == s[..2] + "-" + s[3..5] + "-" + s[6..];
  }

  /** Distinct valid dates never share their `dd-mm-yyyy` text. */
  lemma FormatDateInjective(d1: Date, d2: Date)
    requires ValidDate(d1) && ValidDate(d2)
    requires FormatDate(d1) == FormatDate(d2)
    ensures d1 == d2
  {
    FormatThenParse(d1);
    FormatThenParse(d2);
  }

  /** Why building an operation raised. */
  datatype OperationError =
    | MalformedDate     // strptime raised: no date text, or text not a dd-mm-yyyy date
    | MalformedAmount   // int() raised on a non-empty dbt/cdt text

  /** One balance operation. */
  datatype Operation = Operation(
    id: nat,
    isProcessed: bool,
    date: Date,
    corrAccount: string,
    debit: Option<int>,
    credit: Option<int>)

  /** Python's `str()` of a value that is a string or `None`. */
  function Str(v: Option<string>): string {
    v.GetOr("None")
  }

  /** `int(raw) if raw else None`. */
  function ParseAmount(raw: string): (r: Option<Option<int>>)
    ensures raw == "" ==> r == Some(None)
    ensures raw != "" ==> (r.Some? <==> Text.ParseInt(raw).Some?)
    ensures raw != "" && r.Some? ==> r.value == Text.ParseInt(raw)
  {
    if raw == "" then Some(None)
    else
      match Text.ParseInt(raw)
      case Some(v) => Some(Some(v))
      case None => None
  }

  /** `Operation(id, date, status, corr_account, dbt, cdt)`. */
  function MakeOperation(
    id: nat, date: Option<string>, status: Option<string>,
    corrAccount: Option<string>, dbt: string, cdt: string)
    : (r: Result<Operation, OperationError>)
    ensures r.Success? <==>
              && date.Some? && ParseDate(date.value).Some?
              && (dbt == "" || Text.ParseInt(dbt).Some?)
              && (cdt == "" || Text.ParseInt(cdt).Some?)
    ensures r.Failure? ==> (r.error == MalformedDate <==> date.None? || ParseDate(date.value).None?)
    ensures r.Success? ==> r.value.id == id
    ensures r.Success? ==> (r.value.isProcessed <==> status == Some(COMPLETED_STATUS))
    ensures r.Success? ==> ValidDate(r.value.date) && FormatDate(r.value.date) == date.value
    ensures r.Success? ==> r.value.corrAccount == Str(corrAccount)
    ensures r.Success? ==> (r.value.debit.None? <==> dbt == "")
    ensures r.Success? && dbt != "" ==> r.value.debit == Text.ParseInt(dbt)
    ensures r.Success? ==> (r.value.credit.None? <==> cdt == "")
    ensures r.Success? && cdt != "" ==> r.value.credit == Text.ParseInt(cdt)
  {
    var parsed := if date.Some? then ParseDate(date.value) else None;
    match parsed
    case None => Failure(MalformedDate)
    case Some(d) =>
      ParseThenFormat(date.value);
      match (ParseAmount(dbt), ParseAmount(cdt))
      case (Some(debit), Some(credit)) =>
        Success(Operation(id, status == Some(COMPLETED_STATUS), d, Str(corrAccount), debit, credit))
      case _ => Failure(MalformedAmount)
  }
}

=== FILE: scans.dfy ===
/** The collect-all scan shared by every structural and business check:
    walk a sequence in document order, remember the 1-based position of
    every element that fails, and answer `(True, count)` when none fails or
    `(False, positions)` otherwise. Also the first-failure search that the
    plain-`assert` checks amount to. */
module Scans {
  import opened Wrappers

  /** `(True, count)` or `(False, offending positions or ids)`. */
  datatype ScanResult = AllPass(count: nat) | Offending(positions: seq<nat>)

  predicate StrictlyIncreasing(s: seq<nat>) {
    forall i, j :: 0 <= i < j < |s| ==> s[i] < s[j]
  }

  /** What a faithful collect-all scan of `xs` reports: it passes exactly
      when no element is bad, then with the element count; otherwise it lists,
      strictly increasing, exactly the 1-based positions of the bad elements. */
  ghost predicate Flags<T>(r: ScanResult, xs: seq<T>, isBad: T -> bool) {
    && (r.AllPass? <==> forall i :: 0 <= i < |xs| ==> !isBad(xs[i]))
    && (r.AllPass? ==> r.count == |xs|)
    && (r.Offending? ==>
          && r.positions != []
          && StrictlyIncreasing(r.positions)
          && (forall k :: 0 <= k < |r.positions| ==>
                1 <= r.positions[k] <= |xs| && isBad(xs[r.positions[k] - 1]))
          && (forall i :: 0 <= i < |xs| && isBad(xs[i]) ==> i + 1 in r.positions))
  }

  /** The element at 1-based position `p` exists and is bad. */
  predicate BadAt<T>(xs: seq<T>, isBad: T -> bool, p: nat) {
    0 < p <= |xs| && isBad(xs[p - 1])
  }

  /** Every entry of `ps` is the 1-based position of a bad element after
      index `from`. */
  ghost predicate BadPositions<T>(xs: seq<T>, isBad: T -> bool, from: nat, ps: seq<nat>) {
    forall k :: 0 <= k < |ps| ==> from < ps[k] && BadAt(xs, isBad, ps[k])
  }

  /** Every bad element after index `from` has its 1-based position in `ps`. */
  ghost predicate ListsEveryBad<T>(xs: seq<T>, isBad: T -> bool, from: nat, ps: seq<nat>) {
    forall p :: from < p && BadAt(xs, isBad, p) ==> p in ps
  }

  /** 1-based positions of the elements from index `from` on that `isBad`
      picks out, in document order. */
  function PositionsFrom<T>(xs: seq<T>, isBad: T -> bool, from: nat): (ps: seq<nat>)
    requires from <= |xs|
    ensures StrictlyIncreasing(ps)
    ensures BadPositions(xs, isBad, from, ps)
    ensures ListsEveryBad(xs, isBad, from, ps)
    decreases |xs| - from
  {
    if from == |xs| then []
    else
      var rest := PositionsFrom(xs, isBad, from + 1);
      PositionsStepOrdered(xs, isBad, from, rest);
      PositionsStepComplete(xs, isBad, from, rest);
      if isBad(xs[from]) then [from + 1] + rest else rest
  }

  /** The positions from `from` on are those after it, preceded by
      `from + 1` when the element at `from` is bad. */
  lemma PositionsUnfold<T>(xs: seq<T>, isBad: T -> bool, from: nat)
    requires from < |xs|
    ensures PositionsFrom(xs, isBad, from) ==
            if isBad(xs[from]) then [from + 1] + PositionsFrom(xs, isBad, from + 1)
            else PositionsFrom(xs, isBad, from + 1)
  {
  }

  /** One step of `PositionsFrom`: the positions from `from + 1` on stay
      increasing, in range and bad once the position `from + 1` is put in
      front of them when its element is bad. */
  lemma PositionsStepOrdered<T>(xs: seq<T>, isBad: T -> bool, from: nat, rest: seq<nat>)
    requires from < |xs|
    requires StrictlyIncreasing(rest)
    requires BadPositions(xs, isBad, from + 1, rest)
    ensures var ps := if isBad(xs[from]) then [from + 1] + rest else rest;
            StrictlyIncreasing(ps) && BadPositions(xs, isBad, from, ps)
  {
    if isBad(xs[from]) {
      var ps := [from + 1] + rest;
      forall k | 0 <= k < |ps|
        ensures from < ps[k] && BadAt(xs, isBad, ps[k])
      {
        if k > 0 {
          assert ps[k] == rest[k - 1];
        }
      }
    }
  }

  /** One step of `PositionsFrom`: every bad element after `from` keeps
      its position in the list. */
  lemma PositionsStepComplete<T>(xs: seq<T>, isBad: T -> bool, from: nat, rest: seq<nat>)
    requires from < |xs|
    requires ListsEveryBad(xs, isBad, from + 1, rest)
    ensures ListsEveryBad(xs, isBad, from, if isBad(xs[from]) then [from + 1] + rest else rest)
  {
    var ps := if isBad(xs[from]) then [from + 1] + rest else rest;
    forall p | from < p && BadAt(xs, isBad, p)
      ensures p in ps
    {
      if p == from + 1 {
        assert ps[0] == p;
      } else {
        assert p in rest;
      }
    }
  }

  /** A scan report about one notion of "bad" is one about any notion that
      agrees with it on the scanned elements. */
  lemma FlagsRespectAgreement<T>(r: ScanResult, xs: seq<T>, p: T -> bool, q: T -> bool)
    requires Flags(r, xs, p)
    requires forall i :: 0 <= i < |xs| ==> p(xs[i]) == q(xs[i])
    ensures Flags(r, xs, q)
  {
  }

  /** Turns the collected offenders into the pair the source returns. */
  function Verdict(count: nat, offenders: seq<nat>): ScanResult {
    if |offenders| > 0 then Offending(offenders) else AllPass(count)
  }

  /** The generic collect-all scan over 1-based positions. */
  function Scan<T>(xs: seq<T>, isBad: T -> bool): (r: ScanResult)
    ensures Flags(r, xs, isBad)
  {
    var ps := PositionsFrom(xs, isBad, 0);
    assert ps != [] ==> BadAt(xs, isBad, ps[0]);
    assert forall i :: 0 <= i < |xs| && isBad(xs[i]) ==> i + 1 in ps by {
      assert forall i :: 0 <= i < |xs| && isBad(xs[i]) ==> BadAt(xs, isBad, i + 1);
    }
    Verdict(|xs|, ps)
  }

  /** The first index whose element satisfies `p`: where a plain `assert`
      inside a loop stops. */
  function FirstWhere<T>(xs: seq<T>, p: T -> bool): (r: Option<nat>)
    ensures r.None? <==> forall i :: 0 <= i < |xs| ==> !p(xs[i])
    ensures r.Some? ==> r.value < |xs| && p(xs[r.value])
    ensures r.Some? ==> forall i :: 0 <= i < r.value ==> !p(xs[i])
    decreases |xs|
  {
    if xs == [] then None
    else if p(xs[0]) then Some(0)
    else
      match FirstWhere(xs[1..], p)
      case None => None
      case Some(i) => Some(i + 1)
  }

  /** The findings of a collect-all check that records one finding per bad
      element, from index `from` on: `finding` gives an element's finding at
      its 1-based position. */
  function FindingsFrom<T, F>(xs: seq<T>, finding: (T, nat) -> Option<F>, from: nat): (r: seq<F>)
    requires from <= |xs|
    ensures |r| <= |xs| - from
    decreases |xs| - from
  {
    if from == |xs| then []
    else
      match finding(xs[from], from + 1)
      case Some(f) => [f] + FindingsFrom(xs, finding, from + 1)
      case None => FindingsFrom(xs, finding, from + 1)
  }

  /** When the findings are present exactly for the bad elements, there
      are as many findings as bad elements, every bad element's finding is
      among them, and there are none iff no element is bad. */
  lemma {:induction false} FindingsOfBadElements<T, F>(
    xs: seq<T>, finding: (T, nat) -> Option<F>, isBad: T -> bool, from: nat)
    requires from <= |xs|
    requires forall i :: from <= i < |xs| ==> (finding(xs[i], i + 1).Some? <==> isBad(xs[i]))
    ensures |FindingsFrom(xs, finding, from)| == |PositionsFrom(xs, isBad, from)|
    ensures forall i :: from <= i < |xs| && isBad(xs[i]) ==>
              finding(xs[i], i + 1).value in FindingsFrom(xs, finding, from)
    ensures FindingsFrom(xs, finding, from) == [] <==> forall i :: from <= i < |xs| ==> !isBad(xs[i])
    decreases |xs| - from
  {
    if from < |xs| {
      FindingsOfBadElements(xs, finding, isBad, from + 1);
      var r := FindingsFrom(xs, finding, from);
      var rest := FindingsFrom(xs, finding, from + 1);
      if isBad(xs[from]) {
        assert r == [finding(xs[from], from + 1).value] + rest;
        assert PositionsFrom(xs, isBad, from) == [from + 1] + PositionsFrom(xs, isBad, from + 1);
      } else {
        assert r == rest;
        assert PositionsFrom(xs, isBad, from) == PositionsFrom(xs, isBad, from + 1);
      }
      forall i | from <= i < |xs| && isBad(xs[i])
        ensures finding(xs[i], i + 1).value in r
      {
        if i > from {
          assert finding(xs[i], i + 1).value in rest;
        }
      }
    }
  }

  /** Each finding is the finding of some element at its 1-based position. */
  lemma {:induction false} FindingsHaveOrigins<T, F>(xs: seq<T>, finding: (T, nat) -> Option<F>, from: nat)
    requires from <= |xs|
    ensures forall f :: f in FindingsFrom(xs, finding, from) ==>
              exists i :: from <= i < |xs| && finding(xs[i], i + 1) == Some(f)
    decreases |xs| - from
  {
    if from < |xs| {
      FindingsHaveOrigins(xs, finding, from + 1);
    }
  }

  /** `r[j]` is the finding of the element at 1-based position `ps[j]`. */
  ghost predicate Aligned<T, F>(xs: seq<T>, finding: (T, nat) -> Option<F>, r: seq<F>, ps: seq<nat>) {
    && |r| == |ps|
    && forall j :: 0 <= j < |r| ==> 0 < ps[j] <= |xs| && finding(xs[ps[j] - 1], ps[j]) == Some(r[j])
  }

  lemma AlignedCons<T, F>(xs: seq<T>, finding: (T, nat) -> Option<F>, f: F, p: nat, r: seq<F>, ps: seq<nat>)
    requires Aligned(xs, finding, r, ps)
    requires 0 < p <= |xs| && finding(xs[p - 1], p) == Some(f)
    ensures Aligned(xs, finding, [f] + r, [p] + ps)
  {
    var r', ps' := [f] + r, [p] + ps;
    forall j | 0 <= j < |r'|
      ensures 0 < ps'[j] <= |xs| && finding(xs[ps'[j] - 1], ps'[j]) == Some(r'[j])
    {
      if j > 0 {
        assert r'[j] == r[j - 1] && ps'[j] == ps[j - 1];
      }
    }
  }

  /** The findings come in document order: the `j`-th finding is the
      finding of the `j`-th bad element, at that element's position. */
  lemma {:induction false} FindingsInPositionOrder<T, F>(
    xs: seq<T>, finding: (T, nat) -> Option<F>, isBad: T -> bool, from: nat)
    requires from <= |xs|
    requires forall i :: from <= i < |xs| ==> (finding(xs[i], i + 1).Some? <==> isBad(xs[i]))
    ensures Aligned(xs, finding, FindingsFrom(xs, finding, from), PositionsFrom(xs, isBad, from))
    decreases |xs| - from
  {
    if from < |xs| {
      FindingsInPositionOrder(xs, finding, isBad, from + 1);
      var rest := FindingsFrom(xs, finding, from + 1);
      var psRest := PositionsFrom(xs, isBad, from + 1);
      if isBad(xs[from]) {
        var f := finding(xs[from], from + 1).value;
        assert FindingsFrom(xs, finding, from) == [f] + rest;
        assert PositionsFrom(xs, isBad, from) == [from + 1] + psRest;
        AlignedCons(xs, finding, f, from + 1, rest, psRest);
      } else {
        assert FindingsFrom(xs, finding, from) == rest;
        assert PositionsFrom(xs, isBad, from) == psRest;
      }
    }
  }
}

=== FILE: text.dfy ===
/** String helpers the checks rely on: Python's `int()` on decimal text,
    its inverse for rendering, and `"\n".join` with its inverse `split("\n")`. */
module Text {
  import opened Wrappers

  predicate IsDigit(c: char) {
    '0' <= c <= '9'
  }

  predicate AllDigits(s: string) {
    forall i :: 0 <= i < |s| ==> IsDigit(s[i])
  }

  function DigitValue(c: char): (d: nat)
    requires IsDigit(c)
    ensures d < 10
  {
    c as int - '0' as int
  }

  function DigitChar(d: nat): (c: char)
    requires d < 10
    ensures IsDigit(c) && DigitValue(c) == d
  {
    ('0' as int + d) as char
  }

  /** The value of a run of decimal digits, most significant first. */
  function DigitsValue(s: string): nat
    requires AllDigits(s)
    decreases |s|
  {
    if s == [] then 0 else DigitsValue(s[..|s| - 1]) * 10 + DigitValue(s[|s| - 1])
  }

  /** Shortest decimal rendering of a natural number (no leading zeros). */
  function NatToDigits(n: nat): (s: string)
    ensures |s| > 0 && AllDigits(s)
    ensures n < 10 <==> |s| == 1
  {
    if n < 10 then [DigitChar(n)] else NatToDigits(n / 10) + [DigitChar(n % 10)]
  }

  /** Python's `str(n)` for an integer. */
  function IntToString(n: int): string {
    if n < 0 then "-" + NatToDigits(-n) else NatToDigits(n)
  }

  /** Text `int()` accepts: decimal digits, optionally after one sign. */
  predicate IntegerText(s: string) {
    s != [] && (AllDigits(s) || (s[0] in "+-" && |s| > 1 && AllDigits(s[1..])))
  }

  /** Python's `int(s)` on base-10 text: an optional sign followed by at
      least one decimal digit; anything else raises (here: `None`). */
  function ParseInt(s: string): (r: Option<int>)
    ensures r.Some? <==> IntegerText(s)
    ensures AllDigits(s) && s != [] ==> r == Some(DigitsValue(s))
    ensures |s| > 1 && s[0] in "+-" && AllDigits(s[1..]) ==>
              r == Some(if s[0] == '-' then -(DigitsValue(s[1..]) as int) else DigitsValue(s[1..]))
    ensures r.Some? && r.value < 0 ==> s[0] == '-'
  {
    if s == [] then None
    else if s[0] == '-' || s[0] == '+' then
      var digits := s[1..];
      if digits != [] && AllDigits(digits) then
        var magnitude: int := DigitsValue(digits);
        Some(if s[0] == '-' then -magnitude else magnitude)
      else None
    else if AllDigits(s) then Some(DigitsValue(s))
    else None
  }

  lemma {:induction false} DigitsValueOfRendering(n: nat)
    ensures DigitsValue(NatToDigits(n)) == n
  {
    if n >= 10 {
      var prefix := NatToDigits(n / 10);
      var s := prefix + [DigitChar(n % 10)];
      assert s[..|s| - 1] == prefix;
      DigitsValueOfRendering(n / 10);
    }
  }

  /** Reading back the rendering of any integer yields that integer. */
  lemma ParseIntRoundTrip(n: int)
    ensures ParseInt(IntToString(n)) == Some(n)
  {
    if n < 0 {
      assert IntToString(n) == "-" + NatToDigits(-n);
      NegativeRendering(-n);
    } else {
      assert IntToString(n) == NatToDigits(n);
      DigitsValueOfRendering(n);
    }
  }

  lemma NegativeRendering(m: nat)
    requires m > 0
    ensures ParseInt("-" + NatToDigits(m)) == Some(-(m as int))
  {
    var d := NatToDigits(m);
    var s := "-" + d;
    assert |s| > 1 && s[0] == '-' && s[1..] == d;
    assert !AllDigits(s) by { assert !IsDigit(s[0]); }
    DigitsValueOfRendering(m);
  }

  predicate NewlineFree(s: string) {
    forall i :: 0 <= i < |s| ==> s[i] != '\n'
  }

  /** Python's `"\n".join(ms)`. */
  function JoinLines(ms: seq<string>): (s: string)
    ensures |ms| == 1 ==> s == ms[0]
  {
    if |ms| == 0 then ""
    else if |ms| == 1 then ms[0]
    else ms[0] + "\n" + JoinLines(ms[1..])
  }

  /** Position of the first newline of a text that has one. */
  function FirstNewline(s: string): (i: nat)
    requires !NewlineFree(s)
    ensures i < |s| && s[i] == '\n' && NewlineFree(s[..i])
  {
    if s[0] == '\n' then 0
    else
      var i := 1 + FirstNewline(s[1..]);
      assert s[..i] == [s[0]] + s[1..][..i - 1];
      i
  }

  /** Python's `s.split("\n")`: at least one piece, none holding a newline. */
  function SplitLines(s: string): (ms: seq<string>)
    ensures |ms| > 0
    ensures forall k :: 0 <= k < |ms| ==> NewlineFree(ms[k])
    decreases |s|
  {
    if NewlineFree(s) then [s]
    else
      var i := FirstNewline(s);
      [s[..i]] + SplitLines(s[i + 1..])
  }

  /** The joined failure text can be split back into the original messages
      when none of them holds a newline of its own. */
  lemma {:induction false} SplitJoinRoundTrip(ms: seq<string>)
    requires |ms| > 0
    requires forall k :: 0 <= k < |ms| ==> NewlineFree(ms[k])
    ensures SplitLines(JoinLines(ms)) == ms
  {
    if |ms| > 1 {
      var s := JoinLines(ms);
      var m := ms[0];
      assert s == m + "\n" + JoinLines(ms[1..]);
      assert !NewlineFree(s) by { assert s[|m|] == '\n'; }
      var i := FirstNewline(s);
      assert forall j :: 0 <= j < |m| ==> s[j] == m[j];
      assert i == |m| by {
        assert s[|m|] == '\n';
        assert forall j :: 0 <= j < i ==> s[j] == s[..i][j];
      }
      assert s[..i] == m;
      assert s[i + 1..] == JoinLines(ms[1..]);
      SplitJoinRoundTrip(ms[1..]);
      assert [m] + ms[1..] == ms;
    }
  }
}

=== FILE: wrappers.dfy ===
/** Failure-compatible helper datatypes shared by the whole model.
    `Option` stands for Python's `None`-or-value, `Result` for a value or a
    raised exception. */
module Wrappers {

  datatype Option<+T> = None | Some(value: T) {

    /** The wrapped value, or `default` when absent. */
    function GetOr(default: T): T {
      match this
      case Some(v) => v
      case None => default
    }
  }

  datatype Result<+R, +E> = Success(value: R) | Failure(error: E)
}

=== FILE: xml_tree.dfy ===
/** An already-parsed XML tree and the read-only lookups the checks use:
    attribute reads, first-child-by-tag, child text, namespace stripping of
    tags, and child-step location paths such as `ns:Ballance/ns:Oper`. */
module XmlTree {
  import opened Wrappers
  import Scans

  /** One element: its tag in Clark notation (`{uri}local`, or a bare
      `local` outside any namespace), its attributes, its text (absent when
      the element has none) and its child elements in document order. */
  datatype Element = Element(
    tag: string,
    attrs: map<string, string>,
    text: Option<string>,
    children: seq<Element>)

  /** `elem.get(name)`. */
  function Attr(e: Element, name: string): Option<string> {
    if name in e.attrs then Some(e.attrs[name]) else None
  }

  /** `elem.get(name, default=d)`. */
  function AttrOr(e: Element, name: string, d: string): string {
    Attr(e, name).GetOr(d)
  }

  /** The tag a path step `ns:local` matches when the prefix `ns` is bound
      to the namespace `ns`. The prefix is always bound; when it is bound to
      `None`, lxml formats the step as `{None}local`, which only an element
      whose namespace URI is the text "None" carries. */
  function Qualify(ns: Option<string>, local: string): string {
    match ns
    case Some(uri) => "{" + uri + "}" + local
    case None => "{None}" + local
  }

  ghost predicate IsFirstChildTagged(e: Element, tag: string, i: nat) {
    && i < |e.children|
    && e.children[i].tag == tag
    && forall j :: 0 <= j < i ==> e.children[j].tag != tag
  }

  /** `elem.find(tag)`: the first child carrying exactly that tag. */
  function FindChild(e: Element, tag: string): (r: Option<Element>)
    ensures r.None? <==> forall i :: 0 <= i < |e.children| ==> e.children[i].tag != tag
    ensures r.Some? ==> exists i: nat :: IsFirstChildTagged(e, tag, i) && e.children[i] == r.value
  {
    match Scans.FirstWhere(e.children, (c: Element) => c.tag == tag)
    case Some(i) =>
      assert IsFirstChildTagged(e, tag, i);
      Some(e.children[i])
    case None => None
  }

  /** `elem.findtext(tag)`: the text of the first child with that tag, the
      empty string when that child has no text, absent when there is no
      such child. */
  function FindText(e: Element, tag: string): (r: Option<string>)
    ensures r.Some? <==> FindChild(e, tag).Some?
    ensures r.Some? ==> r.value == FindChild(e, tag).value.text.GetOr("")
  {
    match FindChild(e, tag)
    case Some(c) => Some(c.text.GetOr(""))
    case None => None
  }

  /** The first position of `c` in `s`. */
  function IndexOf(s: string, c: char): (r: Option<nat>)
    ensures r.None? <==> c !in s
    ensures r.Some? ==> r.value < |s| && s[r.value] == c && c !in s[..r.value]
    decreases |s|
  {
    if s == [] then None
    else if s[0] == c then Some(0)
    else
      match IndexOf(s[1..], c)
      case None => None
      case Some(i) =>
        assert s[..i + 1] == [s[0]] + s[1..][..i];
        Some(i + 1)
  }

  /** `tag.split('}')[1]`: the text between the first and the second `}`
      (or the end). A tag without any `}` makes the source raise
      `IndexError`, modelled as `None`. */
  function LocalName(tag: string): (r: Option<string>)
    ensures r.Some? <==> '}' in tag
    ensures r.Some? ==> '}' !in r.value
  {
    match IndexOf(tag, '}')
    case None => None
    case Some(i) =>
      var rest := tag[i + 1..];
      match IndexOf(rest, '}')
      case None => Some(rest)
      case Some(j) => Some(rest[..j])
  }

  /** Stripping the namespace of a qualified tag gives back its local name. */
  lemma LocalNameOfQualified(uri: string, local: string)
    requires '}' !in uri && '}' !in local
    ensures LocalName(Qualify(Some(uri), local)) == Some(local)
  {
    var tag := "{" + uri + "}" + local;
    assert tag[1 + |uri|] == '}';
    assert tag[..1 + |uri|] == "{" + uri;
    var i := IndexOf(tag, '}').value;
    assert i == 1 + |uri| by {
      assert forall k :: 0 <= k < i ==> tag[..i][k] == tag[k];
      assert forall k :: 0 <= k < 1 + |uri| ==> tag[..1 + |uri|][k] == tag[k];
    }
    assert tag[i + 1..] == local;
  }

  /** `get_element_unique_children_names(elem)`: the set of the children's
      namespace-stripped tags; absent when some child tag has no `}` (the
      source raises there). Equal local names collapse into one entry. */
  function UniqueChildNames(e: Element): (r: Option<set<string>>)
    ensures r.None? <==> exists i :: 0 <= i < |e.children| && '}' !in e.children[i].tag
    ensures r.Some? ==> forall name ::
              name in r.value <==>
              exists i :: 0 <= i < |e.children| && LocalName(e.children[i].tag) == Some(name)
  {
    var cs := e.children;
    if exists i :: 0 <= i < |cs| && '}' !in cs[i].tag then None
    else
      Some(set i | 0 <= i < |cs| :: LocalName(cs[i].tag).value)
  }

  /** Elements reached from `e` by following `path`, one child step per
      entry, in document order (`tree.findall("a/b")` from the root). */
  function FindAll(e: Element, path: seq<string>): (r: seq<Element>)
    ensures path != [] ==> forall k :: 0 <= k < |r| ==> r[k].tag == path[|path| - 1]
    ensures path == [] ==> r == [e]
    decreases |path|, 0
  {
    if path == [] then [e]
    else FindAllUnder(ChildrenTagged(e.children, path[0]), path[1..], path[0])
  }

  /** The children with exactly the given tag, in document order. */
  function ChildrenTagged(cs: seq<Element>, tag: string): (r: seq<Element>)
    ensures forall k :: 0 <= k < |r| ==> r[k].tag == tag && r[k] in cs
    ensures forall i :: 0 <= i < |cs| && cs[i].tag == tag ==> cs[i] in r
    ensures |r| <= |cs|
    decreases |cs|
  {
    if cs == [] then []
    else (if cs[0].tag == tag then [cs[0]] else []) + ChildrenTagged(cs[1..], tag)
  }

  /** `FindAll` continued from each of `starts`, concatenated in order;
      `last` is the tag the starts carry, for a path that is already done. */
  function FindAllUnder(starts: seq<Element>, path: seq<string>, last: string): (r: seq<Element>)
    requires forall k :: 0 <= k < |starts| ==> starts[k].tag == last
    ensures forall k :: 0 <= k < |r| ==> r[k].tag == (if path == [] then last else path[|path| - 1])
    decreases |path|, |starts|
  {
    if starts == [] then []
    else FindAll(starts[0], path) + FindAllUnder(starts[1..], path, last)
  }
}
